=== FILE: README.md ===
# Random number guessing game — a Dafny model of the game server's core

The server runs one betting round after another. A round draws a winning
number between 1 and 10, stores a new game in BETTING_PHASE with a deadline
ten seconds ahead and announces it, then sleeps through the betting window.
While it sleeps, players register over HTTP with a name, a guess and a bid.
When the window closes the round stores RESULTS_PHASE and announces the end
of betting. It then sends every winner a WIN_NOTIFICATION carrying their
payout (bid × 9.9, two decimals, rounded half-to-even), sends everybody a
WINNER_LISTING when somebody won, sends every loser a LOSS_NOTIFICATION, and
finally stores ENDED. A subscriber asking for the active game gets the first
game, in the store's iteration order, that has not ended.

The model is a set of pure functions over immutable values:

- `Decimals` — the two `BigDecimal` operations the payout uses, `multiply`
  and `setScale(2, HALF_EVEN)`, on an unscaled integer and a scale.
- `GameModel` — the stored records: `Game` and `Player`.
- `GameRepository` — the in-memory store (a map from game id to game).
- `Requests` — the add-player request with its bean-validation constraints,
  and the response bodies.
- `NumberGeneration` — the mapping of the random draw onto 1..10.
- `GameService` — game creation, phase changes, the active-game lookup,
  winners and losers, payouts and notifications. Every store write and
  every message sent is appended to an event trace instead of being performed.
- `Controllers` — the add-player endpoint and the active-game subscription.
- `GameScheduler` — one whole round (`initGame`) and its broadcast.

Several inputs are parameters rather than effects:

- the clock: `now`, and the `requestReceived` time of each call;
- the random draw;
- the game id the store draws with `UUID.randomUUID()`;
- the registration calls that arrive during the betting window;
- the iteration order of the `HashMap`s: `order`, a sequence listing the keys.

Where an ordering matters, the properties assume `order` lists every key
exactly once (`Enumerates`).

Two facts about the code shape the model:

- Registration never checks the game's phase. A request that fails
  validation and an unknown game id are refused; among valid requests for a
  stored game, only the deadline (`requestReceived` after `betEndingTime`) and
  a name already taken refuse a call.
- The phases are BETTING_PHASE, RESULTS_PHASE, ENDED and NO_ACTIVE_GAME. The
  last one is only ever reported, never stored.

## Model

| member | source | states |
|---|---|---|
| GameModel.NewGame | application/src/main/java/com/rassix/randomNumberGenerator/repository/model/Game.java:15-23 | a built game has the given deadline, phase and winning number and an empty player map |
| GameModel.SetGamePhase | application/src/main/java/com/rassix/randomNumberGenerator/repository/model/Game.java:18-19 | the phase setter changes the phase and leaves deadline, winning number and players as they were |
| GameRepository.CreateGame | application/src/main/java/com/rassix/randomNumberGenerator/repository/GameRepository.java:22-26 | after createGame the store holds the earlier games unchanged plus the new one under its id, and grows by one when the id is new |
| GameRepository.GetGame | application/src/main/java/com/rassix/randomNumberGenerator/repository/GameRepository.java:28-31 | getGame returns the stored game exactly when the id is present, and otherwise GameMissingException with the message `Game with the id "<id>" does not exist` |
| GameRepository.AddPlayer | application/src/main/java/com/rassix/randomNumberGenerator/repository/GameRepository.java:37-43 | addPlayer succeeds exactly when the name is new to that game, and then adds exactly that entry, with no other game, player, phase, deadline or number touched; a taken name gives `Player <name> already exists in game` |
| GameRepository.ChangeGamePhase | application/src/main/java/com/rassix/randomNumberGenerator/repository/GameRepository.java:45-48 | changeGamePhase sets the named game's phase whatever it was, and changes nothing else in the store |
| GameRepository.TakenNameAlwaysRefused | application/src/main/java/com/rassix/randomNumberGenerator/repository/GameRepository.java:37-43 | once a name is taken, any number of further registrations under it are all refused with PlayerExistsException and leave the store as it was |
| GameRepository.SameNameRegistersOnce | application/src/test/java/com/rassix/randomNumberGenerator/repository/GameRepositoryTest.java:91-119 | of N serialized registrations under one new name exactly one is stored, the first, and the other N - 1 fail with `Player <name> already exists in game` |
| Requests.Violations | application/src/main/java/com/rassix/randomNumberGenerator/controller/dto/AddPlayerRequest.java:21-31 | each @NotNull violation is reported exactly when its field is absent; @Min(1) and @Max(10) are reported exactly when a guess is present and below 1 or above 10, and @Positive exactly when a bid is present and worth zero or less; an absent guess or bid violates only @NotNull |
| Requests.ValidIff | application/src/main/java/com/rassix/randomNumberGenerator/controller/dto/AddPlayerRequest.java:21-31 | a request passes validation if and only if the name is present, the guess is present and within [1, 10], and the bid is present and worth more than zero |
| Requests.BoundaryRequests | application/src/main/java/com/rassix/randomNumberGenerator/controller/dto/AddPlayerRequest.java:24-31 | a zero bid and the guesses 0 and 11 are refused, each with its own violation; the guesses 1 and 10 pass; an empty request has all three @NotNull violations |
| NumberGeneration.GenerateNumber | application/src/main/java/com/rassix/randomNumberGenerator/service/NumberGenerationService.java:12-21 | every draw in [0, 10) gives a number in [1, 10], namely the draw shifted by LOW |
| NumberGeneration.GenerateNumberBijective | application/src/main/java/com/rassix/randomNumberGenerator/service/NumberGenerationService.java:12-21 | distinct draws give distinct numbers, and every number in 1..10 is reachable from some draw |
| Decimals.Multiply | application/src/main/java/com/rassix/randomNumberGenerator/service/GameService.java:130 | BigDecimal.multiply is exact: the product's value is the product of the values, and its scale is the sum of the scales |
| Decimals.SetScale | application/src/main/java/com/rassix/randomNumberGenerator/service/GameService.java:130 | setScale(n, HALF_EVEN) gives a decimal of scale n that is the nearest one to the input, taking the even neighbour on a tie; it keeps the value when the scale grows |
| Decimals.HalfEvenQuotientUnique | application/src/main/java/com/rassix/randomNumberGenerator/service/GameService.java:130 | at most one integer is the half-even rounding of a quotient, so that rule fixes the result completely |
| Decimals.SetScaleUnique | application/src/main/java/com/rassix/randomNumberGenerator/service/GameService.java:130 | any decimal satisfying the half-even rounding rule at a scale is the setScale result |
| Decimals.PositiveIffValuePositive | application/src/main/java/com/rassix/randomNumberGenerator/controller/dto/AddPlayerRequest.java:29-31 | the @Positive test on the signum of a bid is the same as its value being greater than zero |
| GameService.CalculateWonAmount | application/src/main/java/com/rassix/randomNumberGenerator/service/GameService.java:129-132 | the payout has two decimals and is bet × 9.9 rounded half-to-even to cents |
| GameService.PayoutDependsOnValue | application/src/main/java/com/rassix/randomNumberGenerator/service/GameService.java:129-132 | two bets of equal value pay the same, however many decimals they are written with |
| GameService.WonAmountIsTheRounding | application/src/main/java/com/rassix/randomNumberGenerator/service/GameService.java:35 | any two-decimal half-even rounding of bet × 9.9 equals the computed payout |
| GameService.WonAmountExamples | application/src/test/java/com/rassix/randomNumberGenerator/service/GameServiceTest.java:185-207 | bets of 34, 31, 6.53 and 1332.131113 pay 336.60, 306.90, 64.65 and 13188.10; the ties 0.495 and 1.485 round to the even cent, 0.50 and 1.48 |
| GameService.CreateGame | application/src/main/java/com/rassix/randomNumberGenerator/service/GameService.java:37-47 | createGame stores a BETTING_PHASE game with no players, the given deadline and the given number under the new id, keeps the other games, and records the store write followed by the new-game announcement |
| GameService.ChangeGamePhase | application/src/main/java/com/rassix/randomNumberGenerator/service/GameService.java:49-55 | changeGamePhase sets the named game's phase and changes nothing else in the store; it keeps the earlier events, records the store write first, and announces the end of betting after it if and only if the new phase is RESULTS_PHASE |
| GameService.FirstActiveIndex | application/src/main/java/com/rassix/randomNumberGenerator/service/GameService.java:73-77 | the search stops at the first game in iteration order that has not ended, or past the end when there is none |
| GameService.GetActiveGame | application/src/main/java/com/rassix/randomNumberGenerator/service/GameService.java:70-78 | getActiveGame returns a stored, not-ended game that comes no later in iteration order than any other not-ended game, and returns null exactly when every game has ended |
| GameService.SingleActiveGameFound | application/src/test/java/com/rassix/randomNumberGenerator/service/GameServiceTest.java:136-160 | when exactly one game has not ended, it is the one returned, whatever the iteration order |
| GameService.WinnerNames | application/src/main/java/com/rassix/randomNumberGenerator/service/GameService.java:83-86 | a name is kept if and only if it is listed and its player's guess is the winning number |
| GameService.Winners | application/src/main/java/com/rassix/randomNumberGenerator/service/GameService.java:83-91 | the winners, in iteration order, are exactly the winning names, each paired with the payout on that player's own bet |
| GameService.Losers | application/src/main/java/com/rassix/randomNumberGenerator/service/GameService.java:97-102 | a name is listed if and only if it is a player whose guess differs from the winning number |
| GameService.GetWinningPlayers | application/src/main/java/com/rassix/randomNumberGenerator/service/GameService.java:80-92 | getWinningPlayers throws GameMissingException for an unknown id; otherwise it lists exactly the players who guessed the winning number, each with their payout |
| GameService.GetUnluckyPlayers | application/src/main/java/com/rassix/randomNumberGenerator/service/GameService.java:94-103 | getUnluckyPlayers throws GameMissingException for an unknown id; otherwise it lists exactly the players whose guess differs from the winning number |
| GameService.DistinctLength | application/src/main/java/com/rassix/randomNumberGenerator/service/GameService.java:83-85 | an iteration order that lists every key once is as long as the key set |
| GameService.PartitionCounts | application/src/main/java/com/rassix/randomNumberGenerator/service/GameService.java:80-103 | the winners' names and the losers together are a rearrangement of the iterated names, counting repetitions |
| GameService.WinnersAndLosersPartition | application/src/main/java/com/rassix/randomNumberGenerator/service/GameService.java:80-103 | every player is in exactly one of the two lists, and the two lists together are as long as the player map |
| GameService.NotifyOfWinners | application/src/main/java/com/rassix/randomNumberGenerator/service/GameService.java:105-121 | notifyOfWinners sends each winner, in order, a WIN_NOTIFICATION carrying that winner's entry, then one WINNER_LISTING with the whole list when there is a winner |
| GameService.ListingOnlyWithWinners | application/src/main/java/com/rassix/randomNumberGenerator/service/GameService.java:114-120 | a message goes to everybody if and only if somebody won, and it is the last message of the batch, carrying the full list |
| GameService.WinMessages | application/src/main/java/com/rassix/randomNumberGenerator/service/GameService.java:106-112 | one WIN_NOTIFICATION per winner, at that winner's position, addressed to that winner |
| GameService.NotifyLoss | application/src/main/java/com/rassix/randomNumberGenerator/service/GameService.java:123-127 | notifyLoss sends each listed name, in order, one LOSS_NOTIFICATION without payload, and nothing else |
| Controllers.AddPlayer | application/src/main/java/com/rassix/randomNumberGenerator/controller/PlayerController.java:28-41 | a registration changes the store only when it answers CREATED; then the name was new to that game, and exactly the requested name, bid and guess are added to it, with nothing else changed; the stored record is the one GameService.addPlayer builds (GameService.java:61-68), bid as betAmount and guess as guessedNumber; a CREATED answer also means the request passed validation and arrived no later than the deadline |
| Controllers.AddPlayerResponse | application/src/main/java/com/rassix/randomNumberGenerator/controller/PlayerController.java:28-41 | the answer is, in order of the checks: 400 with the violations iff the request is invalid; GameMissingException iff the game is unknown; INVALID_BID iff received after the deadline; PlayerExistsException iff the name is taken; CREATED iff none of these |
| Controllers.AddPlayers | application/src/main/java/com/rassix/randomNumberGenerator/controller/PlayerController.java:28-41 | registration calls only ever add players: no game appears or disappears, no phase, deadline or winning number changes, every stored player keeps their bid and guess, and each call gets one answer; every call answered CREATED has its name stored in its game with its own bid and guess, and every new player of a game comes from a call for that game answered CREATED; every call answered CREATED passed validation, named a stored game and arrived no later than that game's deadline |
| Controllers.GameDataEventSubscription | application/src/main/java/com/rassix/randomNumberGenerator/controller/GameController.java:36-45 | the subscriber gets the active game's id, phase and deadline, or only NO_ACTIVE_GAME exactly when every game has ended |
| GameScheduler.InitialGame | application/src/main/java/com/rassix/randomNumberGenerator/service/GameScheduler.java:25-31 | the round's game closes betting 10 000 ms after the start, is in BETTING_PHASE with no players, and its winning number is the draw plus one, in 1..10 |
| GameScheduler.BroadcastRoundResults | application/src/main/java/com/rassix/randomNumberGenerator/service/GameScheduler.java:44-55 | broadcasting leaves the store as it is and keeps the earlier events; it only sends messages, win messages reach exactly the winners and loss messages exactly the losers, and all of the winners' batch comes before all of the loss messages; each win message carries its recipient with the payout on their own bet, and a listing is sent exactly when somebody won, carrying all the winners in the map's order; it appends exactly one message per winner, one listing if there is a winner, and one per loser, and the names messaged one by one are the winners and the losers, each as often as listed |
| GameScheduler.InitGame | application/src/main/java/com/rassix/randomNumberGenerator/service/GameScheduler.java:23-42 | a round sleeps the 10 s window, answers the calls made meanwhile, and leaves its game in ENDED holding the registered players; the trace gains the creation, the close of betting, the results of that game in RESULTS_PHASE, and ENDED |
| GameScheduler.ChangePhaseTwice | application/src/main/java/com/rassix/randomNumberGenerator/service/GameScheduler.java:37-40 | a second phase change overwrites the first |
| GameScheduler.RoundStoreWrites | application/src/main/java/com/rassix/randomNumberGenerator/service/GameScheduler.java:23-42 | initGame's own store writes are the creation, RESULTS_PHASE and ENDED, in that order; the players inserted by registrations during the window are not events of the trace |
| GameScheduler.RoundMessagesBetweenPhases | application/src/main/java/com/rassix/randomNumberGenerator/service/GameScheduler.java:37-40 | every result message is sent after RESULTS_PHASE is stored and betting-closed announced, and before ENDED is stored |
| GameScheduler.RoundRecipients | application/src/main/java/com/rassix/randomNumberGenerator/service/GameScheduler.java:23-55 | within a round, win messages reach exactly the winners and loss messages exactly the losers of the settled game |
| GameScheduler.RoundNotifiesEveryPlayer | application/src/main/java/com/rassix/randomNumberGenerator/service/GameScheduler.java:23-55 | every registered player gets a result: a win message exactly when their guess is the winning number, a loss message exactly when not, never both; each player gets exactly one message addressed to them in the round, and nobody else gets one |
| GameScheduler.SplitByGuess | application/src/main/java/com/rassix/randomNumberGenerator/service/GameService.java:86-100 | over an iteration of the player map, the winning and losing filters select exactly the players whose guess is, and is not, the winning number |
| GameScheduler.DaveRegisters | integration-tests/src/test/java/com/rassix/randomNumberGenerator/service/GameSchedulerTest.java:284-292 | a valid registration one second into a fresh round is CREATED and leaves its name the only player of a game whose number is 3 |
| GameScheduler.DaveWins | integration-tests/src/test/java/com/rassix/randomNumberGenerator/service/GameSchedulerTest.java:231-305 | with number 3, guess 3 and bid 31, the round sends "dave" a win message of 306.90 and everybody a listing with only that entry |
| GameScheduler.DaveLoses | integration-tests/src/test/java/com/rassix/randomNumberGenerator/service/GameSchedulerTest.java:172-229 | with number 3, guess 2 and bid 30, the round sends "dave" a loss message without payload and no message to everybody |

## Left out

- Concurrency is not modelled. The store's `synchronized` addPlayer is modelled as registrations applied one after another. The two `CompletableFuture` batches of broadCastRoundResults may interleave in the source; the model appends the winners' batch, then the losers' batch. Only the fact that both have finished before ENDED is stored is kept.
- The clock, `Random`, `UUID.randomUUID()` and the `HashMap` iteration order are parameters, not effects. Instants are whole milliseconds.
- `Thread.sleep` is modelled by its duration (`sleptMillis`). Registrations arriving in that window are an input sequence.
- The exception paths of initGame are not modelled. `Thread.sleep` may throw InterruptedException, and the two `.get()` calls rethrow a failure of getWinningPlayers, notifyOfWinners or notifyLoss (a failed send, say) as ExecutionException. Nothing catches them, so ENDED is then never stored and getActiveGame keeps returning that game. In the model, sending cannot fail and `InitGame` always reaches ENDED.
- The `@Scheduled` loop (a round every 2.5 s after the previous one) is not modelled; `InitGame` is one round.
- The repository's addPlayer and changeGamePhase dereference a missing game (a NullPointerException in Java). They carry `requires id in games` instead, and every caller in the core passes an id that exists.
- Decimals: only non-negative scales are modelled. A bid written with an exponent (`1E+3`) reaches the code with a negative BigDecimal scale; it has the value of a decimal with scale 0 (1000), and `PayoutDependsOnValue` shows that the payout depends only on the bet's value, so such a bid pays what its scale-0 equal pays.
- The `==` and `!=` on boxed `Integer` in the winner and loser filters compare references. The model compares values. For 1..10 both sides come from the shared `Integer` cache, so the two agree.
- The text of the validation-failure body and the global exception handler's HTTP mapping are not modelled. A failed validation is `InvalidRequest` with the set of violations; an exception escaping the controller is `Thrown`.
- Controllers.AddPlayer: the answer for each case is stated in the lemma `AddPlayerResponse`, not in the function's own contract.
- Logging, `System.out` and the STOMP transport (destinations, JSON encoding) are not modelled. Messages are events in a trace.
- GamePhase.java is not part of this model; its four constants are the ones the core uses.
- NotificationService is not part of this model; each of its calls is one event.

=== FILE: controllers.dfy ===
/**
  The two entry points the transport layer calls: registering a player
  (the deadline guard of PlayerController) and the answer to a subscription
  for the active game (GameController).
 */
module Controllers {
  import opened Options
  import opened GameModel
  import opened GameRepository
  import opened Requests
  import GameService

  const InvalidBidCode := "INVALID_BID"
  const InvalidBidMessage := "Bidding made after expiry time"

  /** What a registration call ends in: 201 CREATED, the 400 INVALID_BID body, the
      400 of a request that failed validation, or an exception thrown out of the
      controller. */
  datatype Response =
    | Created
    | BadRequest(body: ErrorResponse)
    | InvalidRequest(violations: set<Violation>)
    | Thrown(error: GameError)

  /** POST /game/addPlayer/{gameId} with the request received at `requestReceived`.
      Validation runs first, then the game lookup, then the deadline check (a
      request exactly at the deadline passes), then the store's name check. The
      game's phase is never consulted. */
  function AddPlayer(games: Store, id: GameId, req: AddPlayerRequest, requestReceived: Instant): (r: (Store, Response))
    ensures r.1 != Created ==> r.0 == games
    ensures r.1 == Created ==>
      && IsValid(req) && id in games && requestReceived <= games[id].betEndingTime
      && req.username.Some? && req.guessedNumber.Some? && req.bid.Some?
      && req.username.value !in games[id].players
      && r.0.Keys == games.Keys
      && (forall k :: k in games && k != id ==> r.0[k] == games[k])
      && r.0[id].players == games[id].players[req.username.value := Player(req.bid.value, req.guessedNumber.value)]
      && r.0[id].gamePhase == games[id].gamePhase
      && r.0[id].betEndingTime == games[id].betEndingTime
      && r.0[id].winningNumber == games[id].winningNumber
  {
    if !IsValid(req) then (games, InvalidRequest(Violations(req)))
    else
      assert req.username.Some? && req.guessedNumber.Some? && req.bid.Some?;
      match GetGame(games, id)
      case Err(e) => (games, Thrown(e))
      case Ok(game) =>
        if requestReceived > game.betEndingTime then
          (games, BadRequest(ErrorResponse(InvalidBidCode, InvalidBidMessage)))
        else
          match GameRepository.AddPlayer(games, id, req.username.value, GameService.PlayerOf(req))
          case Err(e) => (games, Thrown(e))
          case Ok(next) =>
            assert next[id].players == games[id].players[req.username.value := GameService.PlayerOf(req)];
            (next, Created)
  }

  /** Which answer a registration call gets, in the order the checks run. */
  lemma AddPlayerResponse(games: Store, id: GameId, req: AddPlayerRequest, requestReceived: Instant)
    ensures var r := AddPlayer(games, id, req, requestReceived);
      && (r.1.InvalidRequest? <==> !IsValid(req))
      && (r.1.InvalidRequest? ==> r.1.violations == Violations(req))
      && (r.1 == Thrown(GameMissing(GameMissingMessage(id))) <==> IsValid(req) && id !in games)
      && (r.1 == BadRequest(ErrorResponse("INVALID_BID", "Bidding made after expiry time")) <==>
           IsValid(req) && id in games && requestReceived > games[id].betEndingTime)
      && (r.1.Thrown? && r.1.error.PlayerExists? <==>
           IsValid(req) && id in games && requestReceived <= games[id].betEndingTime
           && req.username.value in games[id].players)
      && (r.1 == Created <==>
           IsValid(req) && id in games && requestReceived <= games[id].betEndingTime
           && req.username.value !in games[id].players)
  {
  }

  /** One registration call as it reaches the controller. */
  datatype Bet = Bet(gameId: GameId, request: AddPlayerRequest, requestReceived: Instant)

  /** The player `b` asks for is stored in `games` under its name, with its bid and guess. */
  predicate Stored(games: Store, b: Bet) {
    && b.gameId in games
    && b.request.username.Some? && b.request.guessedNumber.Some? && b.request.bid.Some?
    && b.request.username.value in games[b.gameId].players
    && games[b.gameId].players[b.request.username.value] == Player(b.request.bid.value, b.request.guessedNumber.value)
  }

  /** Call `b` passes validation and reaches a game of `games` by its deadline. */
  predicate Accepted(games: Store, b: Bet) {
    && IsValid(b.request)
    && b.gameId in games
    && b.requestReceived <= games[b.gameId].betEndingTime
  }

  /** Some call among `bets`, answered CREATED, registered `name` in game `k`. */
  predicate RegisteredBy(bets: seq<Bet>, responses: seq<Response>, k: GameId, name: string) {
    exists i :: 0 <= i < |bets| && i < |responses| && responses[i] == Created
      && bets[i].gameId == k && bets[i].request.username == Some(name)
  }

  /** Registration calls handled one after another. They only ever add players:
      no game appears or disappears, no phase, deadline or winning number changes,
      and every player already stored keeps their bid and guess. Every call
      answered CREATED was valid and on time and has its player stored, and
      every new player comes from such a call. */
  function AddPlayers(games: Store, bets: seq<Bet>): (r: (Store, seq<Response>))
    ensures r.0.Keys == games.Keys
    ensures |r.1| == |bets|
    ensures forall k :: k in games ==>
      && r.0[k].gamePhase == games[k].gamePhase
      && r.0[k].betEndingTime == games[k].betEndingTime
      && r.0[k].winningNumber == games[k].winningNumber
      && games[k].players.Keys <= r.0[k].players.Keys
      && (forall n :: n in games[k].players ==> r.0[k].players[n] == games[k].players[n])
    ensures forall i :: 0 <= i < |bets| && r.1[i] == Created ==> Stored(r.0, bets[i])
    ensures forall i :: 0 <= i < |bets| && r.1[i] == Created ==> Accepted(games, bets[i])
    ensures forall k, n :: k in games && n in r.0[k].players && n !in games[k].players ==>
      RegisteredBy(bets, r.1, k, n)
    decreases |bets|
  {
    if |bets| == 0 then (games, [])
    else
      var first := AddPlayer(games, bets[0].gameId, bets[0].request, bets[0].requestReceived);
      var rest := AddPlayers(first.0, bets[1..]);
      var r := (rest.0, [first.1] + rest.1);
      forall k | k in games
        ensures && r.0[k].gamePhase == games[k].gamePhase
                && r.0[k].betEndingTime == games[k].betEndingTime
                && r.0[k].winningNumber == games[k].winningNumber
                && games[k].players.Keys <= r.0[k].players.Keys
                && (forall n :: n in games[k].players ==> r.0[k].players[n] == games[k].players[n])
      {
        if first.1 != Created {
          assert first.0 == games;
        } else if k == bets[0].gameId {
          assert first.0[k].players == games[k].players[bets[0].request.username.value := GameService.PlayerOf(bets[0].request)];
        }
      }
      assert first.1 == Created ==> Stored(first.0, bets[0]);
      assert first.1 == Created ==> Stored(r.0, bets[0]);
      CreatedShift(bets, first.1, rest.1, r.0);
      AcceptedShift(bets, first.1, rest.1, games, first.0);
      forall k, n | k in games && n in r.0[k].players && n !in games[k].players
        ensures RegisteredBy(bets, r.1, k, n)
      {
        if n in first.0[k].players {
          assert first.1 == Created && k == bets[0].gameId && bets[0].request.username == Some(n);
          RegisteredFirst(bets, first.1, rest.1, k, n);
        } else {
          RegisteredShift(bets, first.1, rest.1, k, n);
        }
      }
      r
  }

  /** The answers to the later calls, shifted by the first one, keep their stored players. */
  lemma CreatedShift(bets: seq<Bet>, first: Response, rest: seq<Response>, games: Store)
    requires |bets| >= 1 && |rest| == |bets| - 1
    requires first == Created ==> Stored(games, bets[0])
    requires forall i :: 0 <= i < |bets[1..]| && rest[i] == Created ==> Stored(games, bets[1..][i])
    ensures forall i :: 0 <= i < |bets| && ([first] + rest)[i] == Created ==> Stored(games, bets[i])
  {
    forall i | 0 <= i < |bets| && ([first] + rest)[i] == Created ensures Stored(games, bets[i]) {
      if i > 0 {
        assert ([first] + rest)[i] == rest[i - 1] && bets[i] == bets[1..][i - 1];
      }
    }
  }

  /** A later call accepted after the first one was accepted against the store
      as it was before: the first call changed no game's deadline. */
  lemma AcceptedShift(bets: seq<Bet>, first: Response, rest: seq<Response>, games: Store, next: Store)
    requires |bets| >= 1 && |rest| == |bets| - 1
    requires first == Created ==> Accepted(games, bets[0])
    requires next.Keys == games.Keys
    requires forall k :: k in games ==> next[k].betEndingTime == games[k].betEndingTime
    requires forall i :: 0 <= i < |bets[1..]| && rest[i] == Created ==> Accepted(next, bets[1..][i])
    ensures forall i :: 0 <= i < |bets| && ([first] + rest)[i] == Created ==> Accepted(games, bets[i])
  {
    forall i | 0 <= i < |bets| && ([first] + rest)[i] == Created ensures Accepted(games, bets[i]) {
      if i > 0 {
        assert ([first] + rest)[i] == rest[i - 1] && bets[i] == bets[1..][i - 1];
      }
    }
  }

  lemma RegisteredFirst(bets: seq<Bet>, first: Response, rest: seq<Response>, k: GameId, n: string)
    requires |bets| >= 1
    requires first == Created && bets[0].gameId == k && bets[0].request.username == Some(n)
    ensures RegisteredBy(bets, [first] + rest, k, n)
  {
    assert ([first] + rest)[0] == Created;
  }

  lemma RegisteredShift(bets: seq<Bet>, first: Response, rest: seq<Response>, k: GameId, n: string)
    requires |bets| >= 1
    requires RegisteredBy(bets[1..], rest, k, n)
    ensures RegisteredBy(bets, [first] + rest, k, n)
  {
    var j :| 0 <= j < |bets[1..]| && j < |rest| && rest[j] == Created
      && bets[1..][j].gameId == k && bets[1..][j].request.username == Some(n);
    assert ([first] + rest)[j + 1] == Created && bets[j + 1] == bets[1..][j];
  }

  /** The subscription to /topic/getActiveGame: the active game's id, phase and
      deadline, or only the phase NO_ACTIVE_GAME when every game has ended. */
  function GameDataEventSubscription(games: Store, order: seq<GameId>): (r: GameInfoResponse)
    requires forall k :: k in games ==> k in order
    ensures r.gameId.None? <==> forall k :: k in games ==> games[k].gamePhase == Ended
    ensures r.gameId.None? ==> r == GameInfoResponse(None, NoActiveGame, None)
    ensures r.gameId.Some? ==>
      var id := r.gameId.value;
      && id in games && games[id].gamePhase != Ended
      && r.gamePhase == games[id].gamePhase
      && r.bettingEndTime == Some(games[id].betEndingTime)
  {
    match GameService.GetActiveGame(games, order)
    case Some((id, game)) => GameInfoResponse(Some(id), game.gamePhase, Some(game.betEndingTime))
    case None => GameInfoResponse(None, NoActiveGame, None)
  }
}

=== FILE: decimals.dfy ===
/**
  Exact decimal numbers in the shape of java.math.BigDecimal: an unscaled
  integer and a scale, whose value is unscaled / 10^scale. Only the two
  operations the payout needs are modelled: `multiply` and
  `setScale(n, RoundingMode.HALF_EVEN)`, both in integer arithmetic.
 */
module Decimals {

  /** 10^n. */
  function Pow10(n: nat): (r: nat)
    ensures r >= 1
  {
    if n == 0 then 1 else 10 * Pow10(n - 1)
  }

  lemma {:induction false} Pow10Add(a: nat, b: nat)
    ensures Pow10(a + b) == Pow10(a) * Pow10(b)
  {
    if a > 0 {
      Pow10Add(a - 1, b);
      calc {
        Pow10(a + b);
        10 * Pow10(a - 1 + b);
        10 * (Pow10(a - 1) * Pow10(b));
        (10 * Pow10(a - 1)) * Pow10(b);
      }
    }
  }

  function Abs(x: int): nat {
    if x < 0 then -x else x
  }

  function Max(a: nat, b: nat): nat {
    if a < b then b else a
  }

  /** A decimal number: `unscaled` / 10^`scale` (non-negative scales only). */
  datatype Decimal = Decimal(unscaled: int, scale: nat)

  /** The exact rational value a decimal stands for. */
  function Value(d: Decimal): real {
    d.unscaled as real / Pow10(d.scale) as real
  }

  /** BigDecimal.multiply: the exact product, whose scale is the sum of the scales. */
  function Multiply(a: Decimal, b: Decimal): (r: Decimal)
    ensures r.scale == a.scale + b.scale
    ensures Value(r) == Value(a) * Value(b)
  {
    var r := Decimal(a.unscaled * b.unscaled, a.scale + b.scale);
    MultiplyValue(a, b);
    r
  }

  lemma MultiplyValue(a: Decimal, b: Decimal)
    ensures Value(Decimal(a.unscaled * b.unscaled, a.scale + b.scale)) == Value(a) * Value(b)
  {
    Pow10Add(a.scale, b.scale);
    RatioProduct(a.unscaled, b.unscaled, Pow10(a.scale), Pow10(b.scale));
  }

  lemma RatioProduct(x: int, y: int, p: int, q: int)
    requires p > 0 && q > 0
    ensures (x * y) as real / (p * q) as real == (x as real / p as real) * (y as real / q as real)
  {
    CastMul(x, y);
    CastMul(p, q);
    DivMulDiv(x as real, y as real, p as real, q as real);
  }

  lemma CastMul(x: int, y: int)
    ensures (x * y) as real == x as real * y as real
  {}

  lemma DivMulDiv(x: real, y: real, p: real, q: real)
    requires p > 0.0 && q > 0.0
    ensures (x / p) * (y / q) == (x * y) / (p * q)
  {
    var a, b := x / p, y / q;
    assert a * p == x;
    assert b * q == y;
    assert (a * b) * (p * q) == x * y;
  }

  lemma CancelFactor(u: real, p: real, q: real)
    requires p > 0.0 && q > 0.0
    ensures (u * p) / (p * q) == u / q
  {
    var a := u / q;
    assert a * q == u;
    assert a * (p * q) == u * p;
  }

  /** `q` is the integer nearest to n / d, and when n / d lies exactly halfway
      between two integers, `q` is the even one (banker's rounding). */
  predicate IsHalfEvenQuotient(n: int, d: int, q: int)
    requires d > 0
  {
    var e := n - q * d;
    2 * Abs(e) <= d && (2 * Abs(e) == d ==> q % 2 == 0)
  }

  /** n / d rounded half-to-even, computed from the Euclidean quotient and remainder. */
  function RoundHalfEven(n: int, d: int): (q: int)
    requires d > 0
    ensures IsHalfEvenQuotient(n, d, q)
  {
    var q0, r0 := n / d, n % d;
    assert n == q0 * d + r0;
    assert (q0 + 1) * d == q0 * d + d;
    if 2 * r0 < d then q0
    else if 2 * r0 > d then q0 + 1
    else if q0 % 2 == 0 then q0
    else q0 + 1
  }

  /** There is only one half-even quotient, so `IsHalfEvenQuotient` is a complete specification. */
  lemma HalfEvenQuotientUnique(n: int, d: int, q1: int, q2: int)
    requires d > 0
    requires IsHalfEvenQuotient(n, d, q1) && IsHalfEvenQuotient(n, d, q2)
    ensures q1 == q2
  {
    if q1 != q2 {
      var e1, e2 := n - q1 * d, n - q2 * d;
      assert e1 - e2 == (q2 - q1) * d by {
        assert q2 * d - q1 * d == (q2 - q1) * d;
      }
      TwoHalvesApart(e1, e2, q2 - q1, d);
      assert false;
    }
  }

  /** Two errors of at most half a step each can only be one step apart when both
      are exactly half a step. */
  lemma TwoHalvesApart(e1: int, e2: int, k: int, d: int)
    requires d > 0 && k != 0
    requires 2 * Abs(e1) <= d && 2 * Abs(e2) <= d
    requires e1 - e2 == k * d
    ensures k == 1 || k == -1
    ensures 2 * Abs(e1) == d && 2 * Abs(e2) == d
  {
    if k >= 2 {
      MulAtLeastTwice(k, d);
      assert false;
    } else if k <= -2 {
      MulAtLeastTwice(-k, d);
      assert false;
    }
  }

  lemma MulAtLeastTwice(k: int, d: int)
    requires k >= 2 && d > 0
    ensures k * d >= 2 * d
  {
    assert k * d == 2 * d + (k - 2) * d;
  }

  /** Scaling numerator and denominator by the same positive factor keeps the
      half-even quotient. */
  lemma HalfEvenScaled(n: int, d: int, q: int, m: int)
    requires d > 0 && m > 0
    requires IsHalfEvenQuotient(n, d, q)
    ensures IsHalfEvenQuotient(n * m, d * m, q)
  {
    var e := n - q * d;
    assert n * m - q * (d * m) == e * m;
    assert Abs(e * m) == Abs(e) * m by {
      if e < 0 { assert -(e * m) == (-e) * m; }
    }
    assert 2 * (Abs(e) * m) == (2 * Abs(e)) * m;
    if 2 * Abs(e) < d {
      assert (2 * Abs(e)) * m < d * m;
    }
  }

  /** Two decimals with the same value, cross-multiplied by the powers of ten of
      each other's scale, give the same integer. */
  lemma SameValueCross(a: Decimal, b: Decimal)
    requires Value(a) == Value(b)
    ensures a.unscaled * Pow10(b.scale) == b.unscaled * Pow10(a.scale)
  {
    var x, y := a.unscaled as real, b.unscaled as real;
    var p, q := Pow10(a.scale) as real, Pow10(b.scale) as real;
    assert x / p == y / q;
    assert x == (y / q) * p;
    assert x * q == y * p;
    CastMul(a.unscaled, Pow10(b.scale));
    CastMul(b.unscaled, Pow10(a.scale));
  }

  /** `r` is `x` rounded half-to-even to `scale` decimal places: both are brought to
      the finer of the two scales and compared there. */
  predicate IsRoundedHalfEven(x: Decimal, scale: nat, r: Decimal) {
    var common := Max(x.scale, scale);
    && r.scale == scale
    && IsHalfEvenQuotient(x.unscaled * Pow10(common - x.scale), Pow10(common - scale), r.unscaled)
  }

  /** A half-even rounding read at any common scale `c` finer than both scales. */
  lemma RoundedAtFinerScale(x: Decimal, scale: nat, r: Decimal, c: nat)
    requires IsRoundedHalfEven(x, scale, r)
    requires c >= x.scale && c >= scale
    ensures IsHalfEvenQuotient(x.unscaled * Pow10(c - x.scale), Pow10(c - scale), r.unscaled)
  {
    var common := Max(x.scale, scale);
    var p1, d, m := Pow10(common - x.scale), Pow10(common - scale), Pow10(c - common);
    HalfEvenScaled(x.unscaled * p1, d, r.unscaled, m);
    assert p1 * m == Pow10(c - x.scale) by {
      Pow10Add(common - x.scale, c - common);
    }
    assert d * m == Pow10(c - scale) by {
      Pow10Add(common - scale, c - common);
    }
    MulRegroup(x.unscaled, p1, m);
  }

  lemma MulRegroup(u: int, p: int, m: int)
    ensures (u * p) * m == u * (p * m)
  {
  }

  /** BigDecimal.setScale(scale, RoundingMode.HALF_EVEN): exact when the scale grows,
      banker's rounding when it shrinks. */
  function SetScale(x: Decimal, scale: nat): (r: Decimal)
    ensures IsRoundedHalfEven(x, scale, r)
    ensures scale >= x.scale ==> Value(r) == Value(x)
  {
    if scale >= x.scale then
      var r := Decimal(x.unscaled * Pow10(scale - x.scale), scale);
      ScaleUpValue(x, scale);
      r
    else
      Decimal(RoundHalfEven(x.unscaled, Pow10(x.scale - scale)), scale)
  }

  lemma ScaleUpValue(x: Decimal, scale: nat)
    requires scale >= x.scale
    ensures Value(Decimal(x.unscaled * Pow10(scale - x.scale), scale)) == Value(x)
  {
    var k := scale - x.scale;
    var p, q := Pow10(k) as real, Pow10(x.scale) as real;
    var u := x.unscaled as real;
    assert (x.unscaled * Pow10(k)) as real == u * p by {
      CastMul(x.unscaled, Pow10(k));
    }
    assert Pow10(scale) as real == p * q by {
      Pow10Add(k, x.scale);
      CastMul(Pow10(k), Pow10(x.scale));
    }
    CancelFactor(u, p, q);
  }

  /** SetScale is the one and only half-even rounding of `x` at `scale`. */
  lemma SetScaleUnique(x: Decimal, scale: nat, r: Decimal)
    requires IsRoundedHalfEven(x, scale, r)
    ensures r == SetScale(x, scale)
  {
    var s := SetScale(x, scale);
    var common := Max(x.scale, scale);
    HalfEvenQuotientUnique(x.unscaled * Pow10(common - x.scale), Pow10(common - scale), r.unscaled, s.unscaled);
  }

  /** BigDecimal.signum() > 0, the test behind the @Positive constraint, is the same as
      the value being positive. */
  lemma PositiveIffValuePositive(d: Decimal)
    ensures d.unscaled > 0 <==> Value(d) > 0.0
  {
    var p := Pow10(d.scale) as real;
    assert p > 0.0;
    if d.unscaled > 0 {
      assert d.unscaled as real > 0.0;
    } else {
      assert d.unscaled as real <= 0.0;
    }
  }
}

=== FILE: game.dfy ===
/**
  The records held by the game store: a game (one betting round) and the
  players registered in it.
 */
module GameModel {
  import opened Decimals

  /** A game id: the text of the UUID the store draws for it. */
  type GameId = string

  /** A point in time, in milliseconds; the source's java.time.Instant. */
  type Instant = int

  /** The source's GamePhase enum. NoActiveGame never belongs to a stored game;
      it is only the phase reported when no game is active. */
  datatype GamePhase = BettingPhase | ResultsPhase | Ended | NoActiveGame

  /** A registration: exactly a bet amount and a guessed number. */
  datatype Player = Player(betAmount: Decimal, guessedNumber: int)

  /** Players are kept in a map keyed by name, so a game holds at most one
      record per name. */
  datatype Game = Game(
    betEndingTime: Instant,
    gamePhase: GamePhase,
    winningNumber: int,
    players: map<string, Player>)

  /** The builder without a `players` call: the player map defaults to empty. */
  function NewGame(betEndingTime: Instant, gamePhase: GamePhase, winningNumber: int): (g: Game)
    ensures g.players == map[]
    ensures g.betEndingTime == betEndingTime && g.winningNumber == winningNumber
    ensures g.gamePhase == gamePhase
  {
    Game(betEndingTime, gamePhase, winningNumber, map[])
  }

  /** The only setter of a game: its phase. Everything else is left as it was. */
  function SetGamePhase(g: Game, phase: GamePhase): (r: Game)
    ensures r.gamePhase == phase
    ensures r.betEndingTime == g.betEndingTime && r.winningNumber == g.winningNumber
    ensures r.players == g.players
  {
    g.(gamePhase := phase)
  }
}

=== FILE: numbers.dfy ===
/**
  The winning-number source. The random draw, `random.nextInt(HIGH - LOW + 1)`,
  is passed in; the module keeps the arithmetic that maps it onto [LOW, HIGH].
 */
module NumberGeneration {

  const Low := 1
  const High := 10

  /** The bound handed to Random.nextInt: draws lie in [0, DrawBound). */
  const DrawBound := High - Low + 1

  function GenerateNumber(draw: int): (n: int)
    requires 0 <= draw < DrawBound
    ensures Low <= n <= High
    ensures n - draw == Low
  {
    draw + Low
  }

  /** Distinct draws give distinct numbers, and each of 1..10 is the result of a
      draw, so the whole range is reachable. */
  lemma GenerateNumberBijective(d1: int, d2: int, n: int)
    requires 0 <= d1 < DrawBound && 0 <= d2 < DrawBound
    ensures d1 != d2 ==> GenerateNumber(d1) != GenerateNumber(d2)
    ensures Low <= n <= High ==> 0 <= n - Low < DrawBound && GenerateNumber(n - Low) == n
  {
  }
}

=== FILE: options.dfy ===
/** The optional value the Java code expresses with `null` or `Optional`. */
module Options {

  datatype Option<+T> = None | Some(value: T)
}

=== FILE: repository.dfy ===
/**
  The game store: a map from game id to game, with creation, lookup,
  registration of a player under a name not yet used in that game, and an
  unconditional overwrite of a game's phase.
 */
module GameRepository {
  import opened GameModel

  type Store = map<GameId, Game>

  /** The two exceptions the store throws, with their messages. */
  datatype GameError = GameMissing(message: string) | PlayerExists(message: string)

  datatype Result<+T> = Ok(value: T) | Err(error: GameError)

  function GameMissingMessage(id: GameId): string {
    "Game with the id \"" + id + "\" does not exist"
  }

  function PlayerExistsMessage(name: string): string {
    "Player " + name + " already exists in game"
  }

  /** createGame: `put` under the id drawn for the game. When the id is new, the
      store holds exactly the earlier games plus this one. */
  function CreateGame(games: Store, id: GameId, game: Game): (r: Store)
    ensures r.Keys == games.Keys + {id}
    ensures r[id] == game
    ensures forall k :: k in games && k != id ==> r[k] == games[k]
    ensures id !in games ==> |r| == |games| + 1
  {
    games[id := game]
  }

  /** getGame: the stored game, or GameMissingException for an unknown id. */
  function GetGame(games: Store, id: GameId): (r: Result<Game>)
    ensures r.Ok? <==> id in games
    ensures r.Ok? ==> r.value == games[id]
    ensures r.Err? ==> r.error == GameMissing("Game with the id \"" + id + "\" does not exist")
  {
    if id in games then Ok(games[id]) else Err(GameMissing(GameMissingMessage(id)))
  }

  /** addPlayer: inserts (name, player) into the game's players when the name is
      new, in whatever phase the game is and whatever its deadline; a name already
      present is refused with PlayerExistsException and nothing changes. */
  function AddPlayer(games: Store, id: GameId, name: string, player: Player): (r: Result<Store>)
    requires id in games
    ensures r.Ok? <==> name !in games[id].players
    ensures r.Err? ==> r.error == PlayerExists("Player " + name + " already exists in game")
    ensures r.Ok? ==> r.value.Keys == games.Keys
    ensures r.Ok? ==> forall k :: k in games && k != id ==> r.value[k] == games[k]
    ensures r.Ok? ==>
      var g, g' := games[id], r.value[id];
      && g'.players.Keys == g.players.Keys + {name}
      && g'.players[name] == player
      && (forall n :: n in g.players ==> g'.players[n] == g.players[n])
      && g'.gamePhase == g.gamePhase
      && g'.betEndingTime == g.betEndingTime
      && g'.winningNumber == g.winningNumber
  {
    var game := games[id];
    if name in game.players then
      Err(PlayerExists(PlayerExistsMessage(name)))
    else
      Ok(games[id := game.(players := game.players[name := player])])
  }

  /** changeGamePhase: overwrites the named game's phase, whatever it was before. */
  function ChangeGamePhase(games: Store, id: GameId, phase: GamePhase): (r: Store)
    requires id in games
    ensures r.Keys == games.Keys
    ensures r[id].gamePhase == phase
    ensures r[id].betEndingTime == games[id].betEndingTime
    ensures r[id].winningNumber == games[id].winningNumber
    ensures r[id].players == games[id].players
    ensures forall k :: k in games && k != id ==> r[k] == games[k]
  {
    games[id := SetGamePhase(games[id], phase)]
  }

  /** One registration call: a name and the record to store under it. */
  datatype Registration = Registration(name: string, player: Player)

  datatype Outcome = Added | Rejected(error: GameError)

  /** Registration calls into one game, taken one after another (the effect of
      the synchronized addPlayer). */
  function AddPlayersSerially(games: Store, id: GameId, regs: seq<Registration>): (r: (Store, seq<Outcome>))
    requires id in games
    ensures r.0.Keys == games.Keys
    ensures |r.1| == |regs|
    decreases |regs|
  {
    if |regs| == 0 then (games, [])
    else
      match AddPlayer(games, id, regs[0].name, regs[0].player)
      case Ok(next) =>
        var rest := AddPlayersSerially(next, id, regs[1..]);
        (rest.0, [Added] + rest.1)
      case Err(e) =>
        var rest := AddPlayersSerially(games, id, regs[1..]);
        (rest.0, [Rejected(e)] + rest.1)
  }

  function CountAdded(os: seq<Outcome>): (n: nat)
    ensures n <= |os|
  {
    if |os| == 0 then 0 else (if os[0] == Added then 1 else 0) + CountAdded(os[1..])
  }

  /** Once a name is taken, every further registration under it is refused and
      the store stays as it is. */
  lemma {:induction false} TakenNameAlwaysRefused(games: Store, id: GameId, name: string, regs: seq<Registration>)
    requires id in games && name in games[id].players
    requires forall i :: 0 <= i < |regs| ==> regs[i].name == name
    ensures AddPlayersSerially(games, id, regs).0 == games
    ensures forall i :: 0 <= i < |regs| ==>
      AddPlayersSerially(games, id, regs).1[i] == Rejected(PlayerExists(PlayerExistsMessage(name)))
    ensures CountAdded(AddPlayersSerially(games, id, regs).1) == 0
    decreases |regs|
  {
    if |regs| > 0 {
      TakenNameAlwaysRefused(games, id, name, regs[1..]);
      var rest := AddPlayersSerially(games, id, regs[1..]);
      assert AddPlayersSerially(games, id, regs).1 == [Rejected(PlayerExists(PlayerExistsMessage(name)))] + rest.1;
    }
  }

  /** Of N registrations under one new name, exactly the first is stored and the
      N - 1 others fail with "Player <name> already exists in game". */
  lemma SameNameRegistersOnce(games: Store, id: GameId, name: string, regs: seq<Registration>)
    requires id in games && name !in games[id].players
    requires |regs| >= 1
    requires forall i :: 0 <= i < |regs| ==> regs[i].name == name
    ensures var r := AddPlayersSerially(games, id, regs);
      && CountAdded(r.1) == 1
      && r.1[0] == Added
      && (forall i :: 1 <= i < |regs| ==> r.1[i] == Rejected(PlayerExists(PlayerExistsMessage(name))))
      && r.0[id].players == games[id].players[name := regs[0].player]
  {
    var first := AddPlayer(games, id, name, regs[0].player);
    var next := first.value;
    assert next[id].players == games[id].players[name := regs[0].player];
    TakenNameAlwaysRefused(next, id, name, regs[1..]);
    var rest := AddPlayersSerially(next, id, regs[1..]);
    var r := AddPlayersSerially(games, id, regs);
    assert r.1 == [Added] + rest.1;
    assert r.1[1..] == rest.1;
  }
}

=== FILE: requests.dfy ===
/**
  The transport objects of the controllers: the add-player request with its
  bean-validation constraints, the error body, and the game-info response.
 */
module Requests {
  import opened Options
  import opened Decimals
  import opened GameModel

  /** The request body of /game/addPlayer; every field may be absent (null). */
  datatype AddPlayerRequest = AddPlayerRequest(
    username: Option<string>,
    guessedNumber: Option<int>,
    bid: Option<Decimal>)

  const GuessMin := 1
  const GuessMax := 10

  /** One failed constraint. @Min, @Max and @Positive accept null; only @NotNull
      rejects an absent field. */
  datatype Violation =
    | UsernameNull
    | GuessedNumberNull
    | GuessedNumberBelowMin
    | GuessedNumberAboveMax
    | BidNull
    | BidNotPositive

  /** The set of constraint violations bean validation reports for a request. */
  function Violations(req: AddPlayerRequest): (vs: set<Violation>)
    ensures UsernameNull in vs <==> req.username.None?
    ensures GuessedNumberNull in vs <==> req.guessedNumber.None?
    ensures BidNull in vs <==> req.bid.None?
    ensures GuessedNumberBelowMin in vs <==> req.guessedNumber.Some? && req.guessedNumber.value < GuessMin
    ensures GuessedNumberAboveMax in vs <==> req.guessedNumber.Some? && req.guessedNumber.value > GuessMax
    ensures BidNotPositive in vs <==> req.bid.Some? && Value(req.bid.value) <= 0.0
  {
    BidSign(req);
    (if req.username.None? then {UsernameNull} else {})
    + (if req.guessedNumber.None? then {GuessedNumberNull} else {})
    + (if req.guessedNumber.Some? && req.guessedNumber.value < GuessMin then {GuessedNumberBelowMin} else {})
    + (if req.guessedNumber.Some? && req.guessedNumber.value > GuessMax then {GuessedNumberAboveMax} else {})
    + (if req.bid.None? then {BidNull} else {})
    + (if req.bid.Some? && req.bid.value.unscaled <= 0 then {BidNotPositive} else {})
  }

  lemma BidSign(req: AddPlayerRequest)
    ensures req.bid.Some? ==> (req.bid.value.unscaled <= 0 <==> Value(req.bid.value) <= 0.0)
  {
    if req.bid.Some? {
      PositiveIffValuePositive(req.bid.value);
    }
  }

  predicate IsValid(req: AddPlayerRequest) {
    Violations(req) == {}
  }

  /** A request passes validation exactly when a name is given, the guess is
      present and within [1, 10], and the bid is present and worth more than zero. */
  lemma ValidIff(req: AddPlayerRequest)
    ensures IsValid(req) <==>
      && req.username.Some?
      && req.guessedNumber.Some? && 1 <= req.guessedNumber.value <= 10
      && req.bid.Some? && Value(req.bid.value) > 0.0
  {
    if req.bid.Some? {
      PositiveIffValuePositive(req.bid.value);
    }
    if !IsValid(req) {
      var vs := Violations(req);
      var v :| v in vs;
    }
  }

  /** A zero bid is refused (strictly positive), and so is a guess of 0 or 11,
      while the bounds 1 and 10 themselves pass. */
  lemma BoundaryRequests(name: string)
    ensures !IsValid(AddPlayerRequest(Some(name), Some(5), Some(Decimal(0, 2))))
    ensures BidNotPositive in Violations(AddPlayerRequest(Some(name), Some(5), Some(Decimal(0, 0))))
    ensures Violations(AddPlayerRequest(Some(name), Some(0), Some(Decimal(1, 0)))) == {GuessedNumberBelowMin}
    ensures Violations(AddPlayerRequest(Some(name), Some(11), Some(Decimal(1, 0)))) == {GuessedNumberAboveMax}
    ensures IsValid(AddPlayerRequest(Some(name), Some(1), Some(Decimal(1, 2))))
    ensures IsValid(AddPlayerRequest(Some(name), Some(10), Some(Decimal(31, 0))))
    ensures Violations(AddPlayerRequest(None, None, None)) == {UsernameNull, GuessedNumberNull, BidNull}
  {
  }

  /** The error body of a refused request. */
  datatype ErrorResponse = ErrorResponse(errorCode: string, errorMessage: string)

  /** What a subscriber learns about a game; absent fields stay null. */
  datatype GameInfoResponse = GameInfoResponse(
    gameId: Option<GameId>,
    gamePhase: GamePhase,
    bettingEndTime: Option<Instant>)
}

=== FILE: scheduler.dfy ===
/**
  One round of the scheduler, run start to finish: draw the winning number,
  create the game with a deadline ten seconds ahead, wait out the betting
  window (during which registration calls arrive), close betting, send the
  results, and end the game. Time, the random draw, the game id, the calls
  arriving during the wait and the players map's iteration order are inputs.
 */
module GameScheduler {
  import opened Options
  import opened Seqs
  import opened GameModel
  import opened GameRepository
  import opened Requests
  import opened NumberGeneration
  import opened GameService
  import opened Controllers

  /** The betting window, 10 seconds, in milliseconds. */
  const BettingWindowMillis := 10 * 1000

  /** What a round leaves behind: the service state, the id of its game, how long
      it slept, and the answers given to the registration calls. */
  datatype Round = Round(service: Service, gameId: GameId, sleptMillis: int, responses: seq<Response>)

  /** The messages sent once game `g` is settled: the winners' batch (win messages
      and the listing), then the losers' batch (loss messages). */
  function ResultMessages(g: Game, order: seq<string>): seq<Event> {
    NotifyOfWinners(Winners(g, order)) + NotifyLoss(Losers(g, order))
  }

  /** broadCastRoundResults: both batches have finished before the caller moves
      on, so they are appended whole. The store is not touched and only messages
      are sent: the winners' batch (to each winner a win message carrying their
      payout, then the listing of all winners if there is any), then a loss
      message to each loser, and to nobody else. */
  function BroadcastRoundResults(s: Service, id: GameId, order: seq<string>): (r: Service)
    requires id in s.games
    ensures r.games == s.games
    ensures |r.trace| >= |s.trace| && r.trace[..|s.trace|] == s.trace
    ensures forall i :: |s.trace| <= i < |r.trace| ==> IsMessage(r.trace[i])
    ensures WinRecipients(r.trace[|s.trace|..]) == (set n | n in order && IsWinner(s.games[id], n))
    ensures LossRecipients(r.trace[|s.trace|..]) == (set n | n in order && IsLoser(s.games[id], n))
    ensures exists k :: WinnersThenLosers(r.trace, |s.trace|, k)
    ensures forall i :: |s.trace| <= i < |r.trace| && IsWinMessage(r.trace[i]) ==>
      && IsWinner(s.games[id], r.trace[i].username)
      && r.trace[i].note.messagePayload == WinnerPayload(WinningPlayer(r.trace[i].username,
           CalculateWonAmount(s.games[id].players[r.trace[i].username].betAmount)))
    ensures (exists i :: |s.trace| <= i < |r.trace| && r.trace[i].ToAll?) <==> WinnerNames(s.games[id], order) != []
    ensures forall i :: |s.trace| <= i < |r.trace| && r.trace[i].ToAll? ==>
      r.trace[i].note == Notification(WinnerListingCode, ListingPayload(Winners(s.games[id], order)))
    ensures |r.trace| == |s.trace| + |WinnerNames(s.games[id], order)|
      + (if WinnerNames(s.games[id], order) != [] then 1 else 0) + |Losers(s.games[id], order)|
    ensures PlayerRecipients(r.trace[|s.trace|..]) ==
      multiset(WinnerNames(s.games[id], order)) + multiset(Losers(s.games[id], order))
  {
    var winners := GetWinningPlayers(s.games, id, order).value;
    var losers := GetUnluckyPlayers(s.games, id, order).value;
    assert NotifyOfWinners(winners) + NotifyLoss(losers) == ResultMessages(s.games[id], order);
    ResultsAppended(s.trace, s.games[id], order);
    ResultCounts(s.trace, s.games[id], order);
    Service(s.games, s.trace + (NotifyOfWinners(winners) + NotifyLoss(losers)))
  }

  /** From `from` on, `events` holds messages of the winners' batch before
      position `k` and loss messages from `k` on. */
  predicate WinnersThenLosers(events: seq<Event>, from: nat, k: int) {
    && from <= k <= |events|
    && (forall i :: from <= i < k ==> IsWinnerBatchMessage(events[i]))
    && (forall i :: k <= i < |events| ==> IsLossMessage(events[i]))
  }

  /** The broadcast appends the results read from the game, winners' batch first. */
  lemma BroadcastAppends(s: Service, id: GameId, order: seq<string>)
    requires id in s.games
    ensures BroadcastRoundResults(s, id, order).trace == s.trace + ResultMessages(s.games[id], order)
  {
    assert GetWinningPlayers(s.games, id, order).value == Winners(s.games[id], order);
    assert GetUnluckyPlayers(s.games, id, order).value == Losers(s.games[id], order);
  }

  /** A message of the winners' batch: a win message or the winner listing. */
  predicate IsWinnerBatchMessage(e: Event) {
    IsWinMessage(e) || (e.ToAll? && e.note.messageCode == WinnerListingCode)
  }

  /** The results of game `g` appended after `pre`, described in terms of `g`:
      who is reached, in which order, and what the winners' batch carries. */
  lemma ResultsAppended(pre: seq<Event>, g: Game, order: seq<string>)
    ensures var t := pre + ResultMessages(g, order);
      && t[..|pre|] == pre
      && (forall i :: |pre| <= i < |t| ==> IsMessage(t[i]))
      && WinRecipients(t[|pre|..]) == (set n | n in order && IsWinner(g, n))
      && LossRecipients(t[|pre|..]) == (set n | n in order && IsLoser(g, n))
      && WinnersThenLosers(t, |pre|, |pre| + |NotifyOfWinners(Winners(g, order))|)
      && (forall i :: |pre| <= i < |t| && IsWinMessage(t[i]) ==>
            && IsWinner(g, t[i].username)
            && t[i].note.messagePayload == WinnerPayload(WinningPlayer(t[i].username,
                 CalculateWonAmount(g.players[t[i].username].betAmount))))
      && ((exists i :: |pre| <= i < |t| && t[i].ToAll?) <==> WinnerNames(g, order) != [])
      && (forall i :: |pre| <= i < |t| && t[i].ToAll? ==>
            t[i].note == Notification(WinnerListingCode, ListingPayload(Winners(g, order))))
  {
    var winners := Winners(g, order);
    BatchesAppended(pre, winners, Losers(g, order));
    BatchPayloads(pre, winners, Losers(g, order));
    WinnerEntries(g, order);
    assert |winners| > 0 <==> WinnerNames(g, order) != [] by {
      assert |Names(winners)| == |winners|;
    }
  }

  /** How many messages the results of `g` add after `pre`, and to whom one by one. */
  lemma ResultCounts(pre: seq<Event>, g: Game, order: seq<string>)
    ensures var t := pre + ResultMessages(g, order);
      && |t| == |pre| + |WinnerNames(g, order)| + (if WinnerNames(g, order) != [] then 1 else 0) + |Losers(g, order)|
      && PlayerRecipients(t[|pre|..]) == multiset(WinnerNames(g, order)) + multiset(Losers(g, order))
  {
    assert (pre + ResultMessages(g, order))[|pre|..] == ResultMessages(g, order);
    assert |Winners(g, order)| == |WinnerNames(g, order)| by {
      assert |Names(Winners(g, order))| == |Winners(g, order)|;
    }
    ResultPlayerRecipients(g, order);
  }

  /** `e` carries, as its payload, an entry of `winners` under its recipient's name. */
  predicate CarriesEntry(e: Event, winners: seq<WinningPlayer>) {
    && e.ToPlayer?
    && e.note.messagePayload.WinnerPayload?
    && e.note.messagePayload.winner in winners
    && e.note.messagePayload.winner.name == e.username
  }

  /** Every entry of the winners of `g` is a winner under their own name, with
      the payout on their bet. */
  lemma WinnerEntries(g: Game, order: seq<string>)
    ensures forall w :: w in Winners(g, order) ==>
      IsWinner(g, w.name) && w == WinningPlayer(w.name, CalculateWonAmount(g.players[w.name].betAmount))
  {
    var winners := Winners(g, order);
    forall w | w in winners
      ensures IsWinner(g, w.name) && w == WinningPlayer(w.name, CalculateWonAmount(g.players[w.name].betAmount))
    {
      var j :| 0 <= j < |winners| && winners[j] == w;
    }
  }

  /** The two batches appended after `pre`: only messages, reaching exactly the
      winners and the losers, the winners' batch first. */
  lemma BatchesAppended(pre: seq<Event>, winners: seq<WinningPlayer>, losers: seq<string>)
    ensures var t := pre + (NotifyOfWinners(winners) + NotifyLoss(losers));
      && t[..|pre|] == pre
      && (forall i :: |pre| <= i < |t| ==> IsMessage(t[i]))
      && WinRecipients(t[|pre|..]) == (set n | n in Names(winners))
      && LossRecipients(t[|pre|..]) == (set n | n in losers)
      && WinnersThenLosers(t, |pre|, |pre| + |NotifyOfWinners(winners)|)
  {
    var m := NotifyOfWinners(winners) + NotifyLoss(losers);
    var t := pre + m;
    assert t[|pre|..] == m;
    BatchRecipients(winners, losers);
    BatchesInOrder(pre, winners, losers);
  }

  lemma BatchesInOrder(pre: seq<Event>, winners: seq<WinningPlayer>, losers: seq<string>)
    ensures var t := pre + (NotifyOfWinners(winners) + NotifyLoss(losers));
      && (forall i :: |pre| <= i < |t| ==> IsMessage(t[i]))
      && WinnersThenLosers(t, |pre|, |pre| + |NotifyOfWinners(winners)|)
  {
    var w, l := NotifyOfWinners(winners), NotifyLoss(losers);
    var t := pre + (w + l);
    forall i | |pre| <= i < |pre| + |w| ensures IsWinnerBatchMessage(t[i]) && IsMessage(t[i]) {
      assert t[i] == w[i - |pre|];
    }
    forall i | |pre| + |w| <= i < |t| ensures IsLossMessage(t[i]) && IsMessage(t[i]) {
      assert t[i] == l[i - |pre| - |w|];
    }
  }

  /** What the two batches carry: each win message an entry of `winners` under
      its recipient's name, and the listing, present exactly when somebody won,
      the whole list. */
  lemma BatchPayloads(pre: seq<Event>, winners: seq<WinningPlayer>, losers: seq<string>)
    ensures var t := pre + (NotifyOfWinners(winners) + NotifyLoss(losers));
      && (forall i :: |pre| <= i < |t| && IsWinMessage(t[i]) ==> CarriesEntry(t[i], winners))
      && ((exists i :: |pre| <= i < |t| && t[i].ToAll?) <==> |winners| > 0)
      && (forall i :: |pre| <= i < |t| && t[i].ToAll? ==>
            t[i].note == Notification(WinnerListingCode, ListingPayload(winners)))
  {
    var w, l := NotifyOfWinners(winners), NotifyLoss(losers);
    var t := pre + (w + l);
    forall i | |pre| <= i < |t|
      ensures IsWinMessage(t[i]) ==> CarriesEntry(t[i], winners)
      ensures t[i].ToAll? ==> t[i].note == Notification(WinnerListingCode, ListingPayload(winners))
    {
      if i < |pre| + |w| {
        var j := i - |pre|;
        assert t[i] == w[j];
        if j < |winners| {
          assert winners[j] in winners;
        }
      } else {
        assert t[i] == l[i - |pre| - |w|];
      }
    }
    if |winners| > 0 {
      assert t[|pre| + |winners|] == w[|winners|];
    }
  }

  predicate IsMessage(e: Event) {
    e.ToPlayer? || e.ToAll?
  }

  predicate IsStoreWrite(e: Event) {
    e.GameStored? || e.PhaseStored?
  }

  predicate IsWinMessage(e: Event) {
    e.ToPlayer? && e.note.messageCode == WinNotificationCode
  }

  predicate IsLossMessage(e: Event) {
    e.ToPlayer? && e.note.messageCode == LossNotificationCode
  }

  function WinRecipients(events: seq<Event>): set<string> {
    set e | e in events && IsWinMessage(e) :: e.username
  }

  function LossRecipients(events: seq<Event>): set<string> {
    set e | e in events && IsLossMessage(e) :: e.username
  }

  /** The names messaged one by one in `events`, each as often as it is messaged. */
  function PlayerRecipients(events: seq<Event>): multiset<string> {
    if |events| == 0 then multiset{}
    else (if events[0].ToPlayer? then multiset{events[0].username} else multiset{}) + PlayerRecipients(events[1..])
  }

  lemma {:induction false} PlayerRecipientsAppend(a: seq<Event>, b: seq<Event>)
    ensures PlayerRecipients(a + b) == PlayerRecipients(a) + PlayerRecipients(b)
    decreases |a|
  {
    if |a| == 0 {
      assert a + b == b;
    } else {
      assert (a + b)[1..] == a[1..] + b;
      PlayerRecipientsAppend(a[1..], b);
    }
  }

  lemma {:induction false} WinMessagesRecipients(winners: seq<WinningPlayer>)
    ensures PlayerRecipients(WinMessages(winners)) == multiset(Names(winners))
    decreases |winners|
  {
    if |winners| > 0 {
      var ms, rest := WinMessages(winners), winners[1..];
      WinMessagesRecipients(rest);
      assert ms == [ms[0]] + WinMessages(rest);
      assert ms[1..] == WinMessages(rest);
      assert ms[0].ToPlayer? && ms[0].username == winners[0].name;
      NamesCons(winners);
    }
  }

  lemma NamesCons(winners: seq<WinningPlayer>)
    requires |winners| > 0
    ensures Names(winners) == [winners[0].name] + Names(winners[1..])
  {
    var ns, rest := Names(winners), Names(winners[1..]);
    forall i | 0 <= i < |ns| ensures ns[i] == ([winners[0].name] + rest)[i] {
      if i > 0 {
        assert winners[i] == winners[1..][i - 1];
      }
    }
  }

  lemma {:induction false} NotifyLossRecipients(losers: seq<string>)
    ensures PlayerRecipients(NotifyLoss(losers)) == multiset(losers)
    decreases |losers|
  {
    if |losers| > 0 {
      NotifyLossRecipients(losers[1..]);
      assert NotifyLoss(losers)[1..] == NotifyLoss(losers[1..]);
      assert losers == [losers[0]] + losers[1..];
    }
  }

  /** The result messages of `g` reach each winner and each loser once per listing. */
  lemma ResultPlayerRecipients(g: Game, order: seq<string>)
    ensures PlayerRecipients(ResultMessages(g, order)) == multiset(WinnerNames(g, order)) + multiset(Losers(g, order))
  {
    var winners, losers := Winners(g, order), Losers(g, order);
    PlayerRecipientsAppend(NotifyOfWinners(winners), NotifyLoss(losers));
    WinMessagesRecipients(winners);
    NotifyLossRecipients(losers);
    if |winners| > 0 {
      var listing := ToAll(Notification(WinnerListingCode, ListingPayload(winners)));
      PlayerRecipientsAppend(WinMessages(winners), [listing]);
      assert [listing][1..] == [];
    }
  }

  lemma BatchRecipients(winners: seq<WinningPlayer>, losers: seq<string>)
    ensures forall e :: e in NotifyOfWinners(winners) + NotifyLoss(losers) ==> IsMessage(e)
    ensures WinRecipients(NotifyOfWinners(winners) + NotifyLoss(losers)) == set n | n in Names(winners)
    ensures LossRecipients(NotifyOfWinners(winners) + NotifyLoss(losers)) == set n | n in losers
  {
    var w, l := NotifyOfWinners(winners), NotifyLoss(losers);
    RecipientsAppend(w, l);
    WinBatchRecipients(winners);
    LossBatchRecipients(losers);
  }

  lemma RecipientsAppend(a: seq<Event>, b: seq<Event>)
    ensures WinRecipients(a + b) == WinRecipients(a) + WinRecipients(b)
    ensures LossRecipients(a + b) == LossRecipients(a) + LossRecipients(b)
  {
  }

  lemma WinBatchRecipients(winners: seq<WinningPlayer>)
    ensures forall e :: e in NotifyOfWinners(winners) ==> IsMessage(e) && !IsLossMessage(e)
    ensures WinRecipients(NotifyOfWinners(winners)) == set n | n in Names(winners)
    ensures LossRecipients(NotifyOfWinners(winners)) == {}
  {
    var w := NotifyOfWinners(winners);
    forall e | e in w ensures IsMessage(e) && !IsLossMessage(e) {
      var i :| 0 <= i < |w| && w[i] == e;
    }
    forall n | n in Names(winners) ensures n in WinRecipients(w) {
      var i :| 0 <= i < |winners| && Names(winners)[i] == n;
      assert IsWinMessage(w[i]);
    }
    forall n | n in WinRecipients(w) ensures n in Names(winners) {
      var e :| e in w && IsWinMessage(e) && e.username == n;
      var i :| 0 <= i < |w| && w[i] == e;
      assert Names(winners)[i] == n;
    }
  }

  lemma LossBatchRecipients(losers: seq<string>)
    ensures forall e :: e in NotifyLoss(losers) ==> IsMessage(e) && !IsWinMessage(e)
    ensures WinRecipients(NotifyLoss(losers)) == {}
    ensures LossRecipients(NotifyLoss(losers)) == set n | n in losers
  {
    var l := NotifyLoss(losers);
    forall e | e in l ensures IsMessage(e) && !IsWinMessage(e) {
      var i :| 0 <= i < |l| && l[i] == e;
    }
    forall n | n in losers ensures n in LossRecipients(l) {
      var i :| 0 <= i < |losers| && losers[i] == n;
      assert IsLossMessage(l[i]);
    }
  }

  /** The game a round creates: deadline 10 s after `now`, the drawn number, no players. */
  function InitialGame(now: Instant, draw: int): (g: Game)
    requires 0 <= draw < DrawBound
    ensures g.betEndingTime == now + BettingWindowMillis && g.gamePhase == BettingPhase && g.players == map[]
    ensures g.winningNumber == draw + 1 && 1 <= g.winningNumber <= 10
  {
    NewGame(now + BettingWindowMillis, BettingPhase, GenerateNumber(draw))
  }

  /** The announcement of a new game: stored, then announced in BETTING_PHASE. */
  function Announced(id: GameId, initial: Game): seq<Event> {
    [GameStored(id, initial),
     NewGameAnnounced(GameInfoResponse(Some(id), BettingPhase, Some(initial.betEndingTime)))]
  }

  /** The close of betting: RESULTS_PHASE stored, then announced. */
  function Closing(id: GameId): seq<Event> {
    [PhaseStored(id, ResultsPhase), BettingEndAnnounced]
  }

  /** The events a round adds for game `id`, created as `initial` and settled as `settled`. */
  function RoundEvents(id: GameId, initial: Game, settled: Game, order: seq<string>): seq<Event> {
    ((Announced(id, initial) + Closing(id)) + ResultMessages(settled, order)) + [PhaseStored(id, Ended)]
  }

  /** initGame, started at `now` with `draw` from Random.nextInt(10), the game id
      `id`, the registration calls `bets` arriving while it sleeps, and `order`, the
      iteration order of the players map when the results are read. The store ends
      with the new game, holding the players the calls registered, in ENDED; the
      trace gains the round's events, with the results read from that game in
      RESULTS_PHASE. */
  method InitGame(s: Service, now: Instant, draw: int, id: GameId, bets: seq<Bet>, order: seq<string>) returns (r: Round)
    requires 0 <= draw < DrawBound
    ensures r.gameId == id && r.sleptMillis == BettingWindowMillis
    ensures var registered := AddPlayers(s.games[id := InitialGame(now, draw)], bets);
      && r.responses == registered.1
      && r.service.games == GameRepository.ChangeGamePhase(registered.0, id, Ended)
      && r.service.trace == s.trace + RoundEvents(id, InitialGame(now, draw), SetGamePhase(registered.0[id], ResultsPhase), order)
  {
    var initial := InitialGame(now, draw);
    var betEndingTime := now + BettingWindowMillis;
    var winningNumber := GenerateNumber(draw);
    var service := GameService.CreateGame(s, id, betEndingTime, winningNumber);
    assert service.games == s.games[id := initial];
    assert service.trace == s.trace + Announced(id, initial);
    var sleptMillis := betEndingTime - now;
    var registered := AddPlayers(service.games, bets);
    var closed := GameService.ChangeGamePhase(Service(registered.0, service.trace), id, ResultsPhase);
    var settled := closed.games[id];
    var broadcast := BroadcastRoundResults(closed, id, order);
    var ended := GameService.ChangeGamePhase(broadcast, id, Ended);
    assert closed.trace == service.trace + Closing(id);
    BroadcastAppends(closed, id, order);
    assert ended.trace == broadcast.trace + [PhaseStored(id, Ended)];
    ChangePhaseTwice(registered.0, id, ResultsPhase, Ended);
    AppendStages(s.trace, Announced(id, initial), Closing(id), ResultMessages(settled, order), [PhaseStored(id, Ended)]);
    r := Round(ended, id, sleptMillis, registered.1);
  }

  /** The second of two phase changes overwrites the first. */
  lemma ChangePhaseTwice(games: Store, id: GameId, first: GamePhase, second: GamePhase)
    requires id in games
    ensures GameRepository.ChangeGamePhase(GameRepository.ChangeGamePhase(games, id, first), id, second) ==
      GameRepository.ChangeGamePhase(games, id, second)
  {
  }

  /** Regrouping the stages of a round's trace. */
  lemma AppendStages<T>(a: seq<T>, b: seq<T>, c: seq<T>, d: seq<T>, e: seq<T>)
    ensures (((a + b) + c) + d) + e == a + (((b + c) + d) + e)
  {
  }

  lemma OpeningStoreWrites(id: GameId, initial: Game)
    ensures Filter(Announced(id, initial) + Closing(id), IsStoreWrite) == [GameStored(id, initial), PhaseStored(id, ResultsPhase)]
  {
    var a, c := Announced(id, initial), Closing(id);
    assert a == [a[0]] + [a[1]];
    assert c == [c[0]] + [c[1]];
    FilterAppend(a, c, IsStoreWrite);
    FilterAppend([a[0]], [a[1]], IsStoreWrite);
    FilterAppend([c[0]], [c[1]], IsStoreWrite);
  }

  lemma ResultMessagesStoreWrites(g: Game, order: seq<string>)
    ensures Filter(ResultMessages(g, order), IsStoreWrite) == []
  {
    var f := Filter(ResultMessages(g, order), IsStoreWrite);
    if |f| > 0 {
      assert f[0] in ResultMessages(g, order);
      BatchRecipients(Winners(g, order), Losers(g, order));
      assert false;
    }
  }

  /** initGame's own store writes: the game created, then RESULTS_PHASE, then
      ENDED, each once and in that order. The players inserted by registrations
      during the window are not events of the trace. */
  lemma RoundStoreWrites(id: GameId, initial: Game, settled: Game, order: seq<string>)
    ensures Filter(RoundEvents(id, initial, settled, order), IsStoreWrite) ==
      [GameStored(id, initial), PhaseStored(id, ResultsPhase), PhaseStored(id, Ended)]
  {
    var h, m := Announced(id, initial) + Closing(id), ResultMessages(settled, order);
    FilterAppend(h + m, [PhaseStored(id, Ended)], IsStoreWrite);
    FilterAppend(h, m, IsStoreWrite);
    OpeningStoreWrites(id, initial);
    ResultMessagesStoreWrites(settled, order);
  }

  /** Every message of a round is sent after RESULTS_PHASE is stored and betting
      closed announced, and before ENDED is stored: ENDED waits for both batches. */
  lemma RoundMessagesBetweenPhases(id: GameId, initial: Game, settled: Game, order: seq<string>)
    ensures var seg := RoundEvents(id, initial, settled, order);
      && |seg| >= 5
      && seg[2] == PhaseStored(id, ResultsPhase)
      && seg[3] == BettingEndAnnounced
      && seg[|seg| - 1] == PhaseStored(id, Ended)
      && forall i :: 0 <= i < |seg| && IsMessage(seg[i]) ==> 3 < i < |seg| - 1
  {
    var h := Announced(id, initial) + Closing(id);
    var seg := RoundEvents(id, initial, settled, order);
    assert |seg| == 5 + |ResultMessages(settled, order)|;
    forall i | 0 <= i < 4 ensures !IsMessage(seg[i]) {
      assert seg[i] == h[i];
    }
  }

  /** Recipients of a round's events: the winners and the losers of the settled game. */
  lemma RoundRecipients(id: GameId, initial: Game, settled: Game, order: seq<string>)
    ensures WinRecipients(RoundEvents(id, initial, settled, order)) == set n | n in order && IsWinner(settled, n)
    ensures LossRecipients(RoundEvents(id, initial, settled, order)) == set n | n in order && IsLoser(settled, n)
  {
    var h, m, e := Announced(id, initial) + Closing(id), ResultMessages(settled, order), [PhaseStored(id, Ended)];
    RecipientsAppend(h + m, e);
    RecipientsAppend(h, m);
    NoRecipients(id, initial);
    assert WinRecipients(m) == (set n | n in order && IsWinner(settled, n))
        && LossRecipients(m) == (set n | n in order && IsLoser(settled, n)) by {
      ResultRecipients(settled, order);
    }
  }

  lemma NoRecipients(id: GameId, initial: Game)
    ensures WinRecipients(Announced(id, initial) + Closing(id)) == {}
    ensures LossRecipients(Announced(id, initial) + Closing(id)) == {}
    ensures WinRecipients([PhaseStored(id, Ended)]) == {}
    ensures LossRecipients([PhaseStored(id, Ended)]) == {}
  {
  }

  /** The result messages reach exactly the winners and the losers of the game. */
  lemma ResultRecipients(g: Game, order: seq<string>)
    ensures WinRecipients(ResultMessages(g, order)) == set n | n in order && IsWinner(g, n)
    ensures LossRecipients(ResultMessages(g, order)) == set n | n in order && IsLoser(g, n)
  {
    BatchRecipients(Winners(g, order), Losers(g, order));
  }

  /** With `order` the players map's iteration order, every registered player gets
      a result: a win message exactly when their guess is the winning number, a loss
      message exactly when it is not, never both, and exactly one message addressed
      to them; nobody else is messaged. */
  lemma RoundNotifiesEveryPlayer(id: GameId, initial: Game, settled: Game, order: seq<string>)
    requires Enumerates(order, settled.players.Keys)
    ensures var seg := RoundEvents(id, initial, settled, order);
      && WinRecipients(seg) == (set n | n in settled.players && settled.players[n].guessedNumber == settled.winningNumber)
      && LossRecipients(seg) == (set n | n in settled.players && settled.players[n].guessedNumber != settled.winningNumber)
      && WinRecipients(seg) + LossRecipients(seg) == settled.players.Keys
      && WinRecipients(seg) * LossRecipients(seg) == {}
      && forall n :: PlayerRecipients(seg)[n] == if n in settled.players then 1 else 0
  {
    RoundRecipients(id, initial, settled, order);
    SplitByGuess(settled, order);
    EachPlayerMessagedOnce(id, initial, settled, order);
  }

  lemma EachPlayerMessagedOnce(id: GameId, initial: Game, settled: Game, order: seq<string>)
    requires Enumerates(order, settled.players.Keys)
    ensures forall n :: PlayerRecipients(RoundEvents(id, initial, settled, order))[n] == if n in settled.players then 1 else 0
  {
    RoundPlayerRecipients(id, initial, settled, order);
    ResultPlayerRecipients(settled, order);
    PartitionCounts(settled, order);
    assert PlayerRecipients(RoundEvents(id, initial, settled, order)) == multiset(order);
    DistinctCounts(order);
  }

  /** Only the result messages of a round go to single players. */
  lemma RoundPlayerRecipients(id: GameId, initial: Game, settled: Game, order: seq<string>)
    ensures PlayerRecipients(RoundEvents(id, initial, settled, order)) == PlayerRecipients(ResultMessages(settled, order))
  {
    var h, m, e := Announced(id, initial) + Closing(id), ResultMessages(settled, order), [PhaseStored(id, Ended)];
    PlayerRecipientsAppend(h + m, e);
    PlayerRecipientsAppend(h, m);
    NoPlayerMessages(h);
    NoPlayerMessages(e);
  }

  lemma {:induction false} NoPlayerMessages(events: seq<Event>)
    requires forall i :: 0 <= i < |events| ==> !events[i].ToPlayer?
    ensures PlayerRecipients(events) == multiset{}
    decreases |events|
  {
    if |events| > 0 {
      NoPlayerMessages(events[1..]);
    }
  }

  /** In a sequence without repeats, every listed element occurs once. */
  lemma {:induction false} DistinctCounts<K>(order: seq<K>)
    requires forall i, j :: 0 <= i < j < |order| ==> order[i] != order[j]
    ensures forall x :: multiset(order)[x] == if x in order then 1 else 0
    decreases |order|
  {
    if |order| > 0 {
      var rest := order[1..];
      DistinctCounts(rest);
      assert order == [order[0]] + rest;
      forall j | 0 <= j < |rest| ensures rest[j] != order[0] {
        assert rest[j] == order[j + 1];
      }
    }
  }

  /** Over an enumeration of the players, the winners and the losers are the
      players whose guess is, and is not, the winning number. */
  lemma SplitByGuess(g: Game, order: seq<string>)
    requires Enumerates(order, g.players.Keys)
    ensures (set n | n in order && IsWinner(g, n)) ==
      (set n | n in g.players && g.players[n].guessedNumber == g.winningNumber)
    ensures (set n | n in order && IsLoser(g, n)) ==
      (set n | n in g.players && g.players[n].guessedNumber != g.winningNumber)
  {
  }

  /** The registration of the end-to-end test: one valid call for "dave", sent a
      second into the window, is accepted and leaves "dave" the only player. */
  lemma DaveRegisters(s: Service, now: Instant, id: GameId, req: AddPlayerRequest)
    requires req.username == Some("dave") && req.guessedNumber.Some? && 1 <= req.guessedNumber.value <= 10
    requires req.bid.Some? && req.bid.value.unscaled > 0
    ensures var registered := AddPlayers(s.games[id := InitialGame(now, 2)], [Bet(id, req, now + 1000)]);
      && registered.1 == [Created]
      && registered.0[id].players == map["dave" := Player(req.bid.value, req.guessedNumber.value)]
      && registered.0[id].winningNumber == 3
  {
    var games := s.games[id := InitialGame(now, 2)];
    assert IsValid(req) by {
      ValidIff(req);
      Decimals.PositiveIffValuePositive(req.bid.value);
    }
    var first := Controllers.AddPlayer(games, id, req, now + 1000);
    AddPlayerResponse(games, id, req, now + 1000);
    var bets := [Bet(id, req, now + 1000)];
    assert bets[1..] == [];
    assert AddPlayers(first.0, []) == (first.0, []);
    assert AddPlayers(games, bets) == (AddPlayers(first.0, bets[1..]).0, [first.1] + AddPlayers(first.0, bets[1..]).1);
    assert [first.1] + [] == [first.1];
  }

  /** The round of the end-to-end test: drawn number 3, "dave" registers within
      the window with a bid of 31 and guess 3 and receives a win message of 306.90
      plus a listing holding only that entry. */
  lemma DaveWins(s: Service, now: Instant, id: GameId)
    ensures var req := AddPlayerRequest(Some("dave"), Some(3), Some(Decimals.Decimal(31, 0)));
      var registered := AddPlayers(s.games[id := InitialGame(now, 2)], [Bet(id, req, now + 1000)]);
      var seg := RoundEvents(id, InitialGame(now, 2), SetGamePhase(registered.0[id], ResultsPhase), ["dave"]);
      var dave := WinningPlayer("dave", Decimals.Decimal(30690, 2));
      && registered.1 == [Created]
      && ToPlayer("dave", Notification(WinNotificationCode, WinnerPayload(dave))) in seg
      && ToAll(Notification(WinnerListingCode, ListingPayload([dave]))) in seg
  {
    var req := AddPlayerRequest(Some("dave"), Some(3), Some(Decimals.Decimal(31, 0)));
    var registered := AddPlayers(s.games[id := InitialGame(now, 2)], [Bet(id, req, now + 1000)]);
    DaveRegisters(s, now, id, req);
    DaveWinsEvents(id, InitialGame(now, 2), SetGamePhase(registered.0[id], ResultsPhase));
  }

  lemma DaveWinsEvents(id: GameId, initial: Game, g: Game)
    requires g.players == map["dave" := Player(Decimals.Decimal(31, 0), 3)] && g.winningNumber == 3
    ensures var seg := RoundEvents(id, initial, g, ["dave"]);
      var dave := WinningPlayer("dave", Decimals.Decimal(30690, 2));
      && ToPlayer("dave", Notification(WinNotificationCode, WinnerPayload(dave))) in seg
      && ToAll(Notification(WinnerListingCode, ListingPayload([dave]))) in seg
  {
    var dave := WinningPlayer("dave", Decimals.Decimal(30690, 2));
    var win := ToPlayer("dave", Notification(WinNotificationCode, WinnerPayload(dave)));
    var listing := ToAll(Notification(WinnerListingCode, ListingPayload([dave])));
    DaveWinsResults(g);
    var seg := RoundEvents(id, initial, g, ["dave"]);
    assert seg == ((Announced(id, initial) + Closing(id)) + [win, listing]) + [PhaseStored(id, Ended)];
    assert seg[4] == win && seg[5] == listing;
  }

  lemma DaveWinsResults(g: Game)
    requires g.players == map["dave" := Player(Decimals.Decimal(31, 0), 3)] && g.winningNumber == 3
    ensures var dave := WinningPlayer("dave", Decimals.Decimal(30690, 2));
      ResultMessages(g, ["dave"]) ==
        [ToPlayer("dave", Notification(WinNotificationCode, WinnerPayload(dave))),
         ToAll(Notification(WinnerListingCode, ListingPayload([dave])))]
  {
    var dave := WinningPlayer("dave", Decimals.Decimal(30690, 2));
    assert IsWinner(g, "dave") && !IsLoser(g, "dave");
    assert ["dave"][1..] == [];
    assert WinnerNames(g, ["dave"]) == ["dave"];
    assert Losers(g, ["dave"]) == [];
    assert Winners(g, ["dave"]) == [dave] by {
      assert Decimals.Pow10(0) == 1 && Decimals.Pow10(1) == 10;
      WonAmountExample(31, 0, 30690);
    }
  }

  /** The same round with guess 2: a loss message without payload, and no listing. */
  lemma DaveLoses(s: Service, now: Instant, id: GameId)
    ensures var req := AddPlayerRequest(Some("dave"), Some(2), Some(Decimals.Decimal(30, 0)));
      var registered := AddPlayers(s.games[id := InitialGame(now, 2)], [Bet(id, req, now + 1000)]);
      var seg := RoundEvents(id, InitialGame(now, 2), SetGamePhase(registered.0[id], ResultsPhase), ["dave"]);
      && registered.1 == [Created]
      && ToPlayer("dave", Notification(LossNotificationCode, NoPayload)) in seg
      && forall e :: e in seg ==> !e.ToAll?
  {
    var req := AddPlayerRequest(Some("dave"), Some(2), Some(Decimals.Decimal(30, 0)));
    var registered := AddPlayers(s.games[id := InitialGame(now, 2)], [Bet(id, req, now + 1000)]);
    DaveRegisters(s, now, id, req);
    DaveLosesEvents(id, InitialGame(now, 2), SetGamePhase(registered.0[id], ResultsPhase));
  }

  lemma DaveLosesEvents(id: GameId, initial: Game, g: Game)
    requires g.players == map["dave" := Player(Decimals.Decimal(30, 0), 2)] && g.winningNumber == 3
    ensures var seg := RoundEvents(id, initial, g, ["dave"]);
      && ToPlayer("dave", Notification(LossNotificationCode, NoPayload)) in seg
      && forall e :: e in seg ==> !e.ToAll?
  {
    var loss := ToPlayer("dave", Notification(LossNotificationCode, NoPayload));
    DaveLosesResults(g);
    var seg := RoundEvents(id, initial, g, ["dave"]);
    assert seg == [GameStored(id, initial),
                   NewGameAnnounced(GameInfoResponse(Some(id), BettingPhase, Some(initial.betEndingTime))),
                   PhaseStored(id, ResultsPhase), BettingEndAnnounced, loss, PhaseStored(id, Ended)];
    forall e | e in seg ensures !e.ToAll? {
      var i :| 0 <= i < |seg| && seg[i] == e;
    }
  }

  lemma DaveLosesResults(g: Game)
    requires g.players == map["dave" := Player(Decimals.Decimal(30, 0), 2)] && g.winningNumber == 3
    ensures ResultMessages(g, ["dave"]) == [ToPlayer("dave", Notification(LossNotificationCode, NoPayload))]
  {
    assert !IsWinner(g, "dave") && IsLoser(g, "dave");
    assert ["dave"][1..] == [];
    assert Winners(g, ["dave"]) == [];
    assert Losers(g, ["dave"]) == ["dave"];
  }
}

=== FILE: seqs.dfy ===
/** Filtering a sequence, used to read the store writes and messages out of a trace. */
module Seqs {

  function Filter<T(!new)>(s: seq<T>, p: T -> bool): (r: seq<T>)
    ensures |r| <= |s|
    ensures forall x :: x in r <==> x in s && p(x)
  {
    if |s| == 0 then []
    else if p(s[0]) then [s[0]] + Filter(s[1..], p)
    else Filter(s[1..], p)
  }

  lemma {:induction false} FilterAppend<T(!new)>(a: seq<T>, b: seq<T>, p: T -> bool)
    ensures Filter(a + b, p) == Filter(a, p) + Filter(b, p)
    decreases |a|
  {
    if |a| > 0 {
      FilterAppend(a[1..], b, p);
      assert (a + b)[1..] == a[1..] + b;
    } else {
      assert a + b == b;
    }
  }
}

=== FILE: service.dfy ===
/**
  The settlement logic of a round: creating a game and announcing it,
  changing its phase, finding the active game, splitting players into
  winners and losers, the payout, and the messages sent to players.
  Notifications are appended to an event trace instead of being sent.
 */
module GameService {
  import opened Options
  import opened Decimals
  import opened GameModel
  import opened GameRepository
  import opened Requests

  /** The payout multiplier, the decimal 9.9. */
  const WinningCoef := Decimal(99, 1)

  /** A winner's payout: bet × 9.9 with two decimals, rounded half-to-even. */
  function CalculateWonAmount(bet: Decimal): (r: Decimal)
    ensures r.scale == 2
    ensures IsRoundedHalfEven(Decimal(99 * bet.unscaled, bet.scale + 1), 2, r)
  {
    SetScale(Multiply(bet, WinningCoef), 2)
  }

  /** The payout is determined by the rounding rule alone: any two-decimal
      half-even rounding of bet × 9.9 is the payout. */
  lemma WonAmountIsTheRounding(bet: Decimal, r: Decimal)
    requires IsRoundedHalfEven(Decimal(99 * bet.unscaled, bet.scale + 1), 2, r)
    ensures r == CalculateWonAmount(bet)
  {
    assert Multiply(bet, WinningCoef) == Decimal(99 * bet.unscaled, bet.scale + 1);
    SetScaleUnique(Decimal(99 * bet.unscaled, bet.scale + 1), 2, r);
  }

  /** The payout's quotient, read at any finer common scale `c`. */
  lemma PayoutQuotientAt(bet: Decimal, c: nat)
    requires c >= bet.scale + 1 && c >= 2
    ensures IsHalfEvenQuotient(99 * bet.unscaled * Pow10(c - bet.scale - 1), Pow10(c - 2), CalculateWonAmount(bet).unscaled)
  {
    RoundedAtFinerScale(Decimal(99 * bet.unscaled, bet.scale + 1), 2, CalculateWonAmount(bet), c);
  }

  /** The payout depends only on the value of the bet, not on how it is written:
      3.10 and 3.1 pay the same, and so does a bet whose BigDecimal scale is
      negative (1E+3) and its equal at scale 0 (1000). */
  lemma PayoutDependsOnValue(a: Decimal, b: Decimal)
    requires Value(a) == Value(b)
    ensures CalculateWonAmount(a) == CalculateWonAmount(b)
  {
    var c := a.scale + b.scale + 2;
    PayoutQuotientAt(a, c);
    PayoutQuotientAt(b, c);
    SameValueCross(a, b);
    assert c - a.scale - 1 == b.scale + 1 && c - b.scale - 1 == a.scale + 1;
    assert Pow10(b.scale + 1) == 10 * Pow10(b.scale) && Pow10(a.scale + 1) == 10 * Pow10(a.scale);
    CrossScaled(a.unscaled, b.unscaled, Pow10(a.scale), Pow10(b.scale));
    HalfEvenQuotientUnique(99 * a.unscaled * Pow10(c - a.scale - 1), Pow10(c - 2),
      CalculateWonAmount(a).unscaled, CalculateWonAmount(b).unscaled);
  }

  lemma CrossScaled(ua: int, ub: int, pa: int, pb: int)
    requires ua * pb == ub * pa
    ensures 99 * ua * (10 * pb) == 99 * ub * (10 * pa)
  {
    assert 99 * ua * (10 * pb) == 990 * (ua * pb);
    assert 99 * ub * (10 * pa) == 990 * (ub * pa);
  }

  /** An example payout, checked against the rounding rule: bet `u / 10^k` pays `q / 100`. */
  lemma WonAmountExample(u: int, k: nat, q: int)
    requires IsHalfEvenQuotient(99 * u * Pow10(Max(k + 1, 2) - (k + 1)), Pow10(Max(k + 1, 2) - 2), q)
    ensures CalculateWonAmount(Decimal(u, k)) == Decimal(q, 2)
  {
    WonAmountIsTheRounding(Decimal(u, k), Decimal(q, 2));
  }

  /** 34 → 336.60, 31 → 306.90, 6.53 → 64.65 (64.647), 1332.131113 → 13188.10;
      the ties 0.05 → 0.50 (0.495) and 0.15 → 1.48 (1.485) go to the even cent. */
  lemma WonAmountExamples()
    ensures CalculateWonAmount(Decimal(34, 0)) == Decimal(33660, 2)
    ensures CalculateWonAmount(Decimal(31, 0)) == Decimal(30690, 2)
    ensures CalculateWonAmount(Decimal(653, 2)) == Decimal(6465, 2)
    ensures CalculateWonAmount(Decimal(1332131113, 6)) == Decimal(1318810, 2)
    ensures CalculateWonAmount(Decimal(5, 2)) == Decimal(50, 2)
    ensures CalculateWonAmount(Decimal(15, 2)) == Decimal(148, 2)
  {
    assert Pow10(0) == 1 && Pow10(1) == 10 && Pow10(5) == 100000;
    WonAmountExample(34, 0, 33660);
    WonAmountExample(31, 0, 30690);
    WonAmountExample(653, 2, 6465);
    WonAmountExample(1332131113, 6, 1318810);
    WonAmountExample(5, 2, 50);
    WonAmountExample(15, 2, 148);
  }

  datatype WinningPlayer = WinningPlayer(name: string, wonAmount: Decimal)

  datatype Payload =
    | NoPayload
    | WinnerPayload(winner: WinningPlayer)
    | ListingPayload(winners: seq<WinningPlayer>)

  datatype Notification = Notification(messageCode: string, messagePayload: Payload)

  const WinNotificationCode := "WIN_NOTIFICATION"
  const WinnerListingCode := "WINNER_LISTING"
  const LossNotificationCode := "LOSS_NOTIFICATION"

  /** What the round leaves behind: the store writes and the messages sent, in order. */
  datatype Event =
    | GameStored(id: GameId, game: Game)
    | PhaseStored(id: GameId, phase: GamePhase)
    | NewGameAnnounced(info: GameInfoResponse)
    | BettingEndAnnounced
    | ToPlayer(username: string, note: Notification)
    | ToAll(note: Notification)

  /** The store together with the trace of everything done so far. */
  datatype Service = Service(games: Store, trace: seq<Event>)

  /** createGame: stores a game in the betting phase with no players under the
      drawn id, then announces it. */
  function CreateGame(s: Service, id: GameId, betEndingTime: Instant, winningNumber: int): (r: Service)
    ensures r.games.Keys == s.games.Keys + {id}
    ensures forall k :: k in s.games && k != id ==> r.games[k] == s.games[k]
    ensures var g := r.games[id];
      && g.betEndingTime == betEndingTime && g.winningNumber == winningNumber
      && g.gamePhase == BettingPhase && g.players == map[]
    ensures r.trace == s.trace + [GameStored(id, r.games[id]),
                                  NewGameAnnounced(GameInfoResponse(Some(id), BettingPhase, Some(betEndingTime)))]
  {
    var game := NewGame(betEndingTime, BettingPhase, winningNumber);
    Service(
      GameRepository.CreateGame(s.games, id, game),
      s.trace + [GameStored(id, game), NewGameAnnounced(GameInfoResponse(Some(id), BettingPhase, Some(betEndingTime)))])
  }

  /** The events of a phase change: the store write, followed by the
      betting-closed message when the new phase is RESULTS_PHASE. */
  function PhaseEvents(id: GameId, phase: GamePhase): seq<Event> {
    if phase == ResultsPhase then [PhaseStored(id, phase), BettingEndAnnounced]
    else [PhaseStored(id, phase)]
  }

  /** changeGamePhase: the named game's phase is overwritten and nothing else in
      the store changes; the store write is recorded first, and the end of betting
      is announced after it if and only if the new phase is RESULTS_PHASE. */
  function ChangeGamePhase(s: Service, id: GameId, phase: GamePhase): (r: Service)
    requires id in s.games
    ensures r.games.Keys == s.games.Keys
    ensures r.games[id].gamePhase == phase
    ensures r.games[id].betEndingTime == s.games[id].betEndingTime
    ensures r.games[id].winningNumber == s.games[id].winningNumber
    ensures r.games[id].players == s.games[id].players
    ensures forall k :: k in s.games && k != id ==> r.games[k] == s.games[k]
    ensures |r.trace| == |s.trace| + (if phase == ResultsPhase then 2 else 1)
    ensures r.trace[..|s.trace|] == s.trace
    ensures r.trace[|s.trace|] == PhaseStored(id, phase)
    ensures BettingEndAnnounced in r.trace[|s.trace|..] <==> phase == ResultsPhase
  {
    var trace := s.trace + PhaseEvents(id, phase);
    assert trace[|s.trace|..] == PhaseEvents(id, phase);
    Service(GameRepository.ChangeGamePhase(s.games, id, phase), trace)
  }

  /** The record GameService.addPlayer builds from a validated request. */
  function PlayerOf(req: AddPlayerRequest): Player
    requires req.guessedNumber.Some? && req.bid.Some?
  {
    Player(req.bid.value, req.guessedNumber.value)
  }

  /** getActiveGame: the first entry, in the map's iteration order `order`, whose
      phase is not ENDED; None (null) exactly when every game has ended. */
  function GetActiveGame(games: Store, order: seq<GameId>): (r: Option<(GameId, Game)>)
    requires forall k :: k in games ==> k in order
    ensures r.Some? ==> r.value.0 in games && r.value.1 == games[r.value.0] && r.value.1.gamePhase != Ended
    ensures r.None? <==> forall k :: k in games ==> games[k].gamePhase == Ended
    ensures r.Some? ==> forall j :: 0 <= j < |order| && order[j] in games && games[order[j]].gamePhase != Ended ==>
      r.value.0 in order[..j + 1]
  {
    FirstActive(games, order)
  }

  /** A stored game whose phase is not ENDED. */
  predicate IsActive(games: Store, id: GameId) {
    id in games && games[id].gamePhase != Ended
  }

  /** The position of the first active game in `order` from `from` on, or |order| when there is none. */
  function FirstActiveIndex(games: Store, order: seq<GameId>, from: nat): (i: nat)
    requires from <= |order|
    ensures from <= i <= |order|
    ensures i < |order| ==> IsActive(games, order[i])
    ensures forall j :: from <= j < i ==> !IsActive(games, order[j])
    decreases |order| - from
  {
    if from == |order| || IsActive(games, order[from]) then from
    else FirstActiveIndex(games, order, from + 1)
  }

  function FirstActive(games: Store, order: seq<GameId>): (r: Option<(GameId, Game)>)
    ensures r.Some? ==> r.value.0 in games && r.value.1 == games[r.value.0] && r.value.1.gamePhase != Ended
    ensures r.None? <==> forall i :: 0 <= i < |order| && order[i] in games ==> games[order[i]].gamePhase == Ended
    ensures r.Some? ==> forall j :: 0 <= j < |order| && order[j] in games && games[order[j]].gamePhase != Ended ==>
      r.value.0 in order[..j + 1]
  {
    var i := FirstActiveIndex(games, order, 0);
    if i < |order| then
      forall j | i <= j < |order| && order[j] in games ensures order[i] in order[..j + 1] {
        assert order[..j + 1][i] == order[i];
      }
      Some((order[i], games[order[i]]))
    else
      assert forall j :: 0 <= j < |order| ==> !IsActive(games, order[j]);
      None
  }

  /** When exactly one game has not ended, it is the active game, whatever the
      iteration order. */
  lemma SingleActiveGameFound(games: Store, order: seq<GameId>, id: GameId)
    requires forall k :: k in games ==> k in order
    requires id in games && games[id].gamePhase != Ended
    requires forall k :: k in games && k != id ==> games[k].gamePhase == Ended
    ensures GetActiveGame(games, order) == Some((id, games[id]))
  {
  }

  predicate IsWinner(g: Game, name: string) {
    name in g.players && g.players[name].guessedNumber == g.winningNumber
  }

  predicate IsLoser(g: Game, name: string) {
    name in g.players && g.players[name].guessedNumber != g.winningNumber
  }

  function Names(ws: seq<WinningPlayer>): (ns: seq<string>)
    ensures |ns| == |ws|
    ensures forall i :: 0 <= i < |ws| ==> ns[i] == ws[i].name
  {
    seq(|ws|, i requires 0 <= i < |ws| => ws[i].name)
  }

  /** The names among `order` whose guess equals the winning number, in that order. */
  function WinnerNames(g: Game, order: seq<string>): (r: seq<string>)
    ensures |r| <= |order|
    ensures forall n :: n in r <==> n in order && IsWinner(g, n)
  {
    if |order| == 0 then []
    else
      var rest := WinnerNames(g, order[1..]);
      if IsWinner(g, order[0]) then [order[0]] + rest else rest
  }

  /** The winners among `order`, in that order, each with the payout on their bet:
      the winning entries filtered out, then mapped to WinningPlayer. */
  function Winners(g: Game, order: seq<string>): (r: seq<WinningPlayer>)
    ensures Names(r) == WinnerNames(g, order)
    ensures forall i :: 0 <= i < |r| ==>
      IsWinner(g, r[i].name) && r[i].wonAmount == CalculateWonAmount(g.players[r[i].name].betAmount)
  {
    var names := WinnerNames(g, order);
    assert forall i :: 0 <= i < |names| ==> names[i] in names;
    seq(|names|, i requires 0 <= i < |names| && names[i] in g.players =>
      WinningPlayer(names[i], CalculateWonAmount(g.players[names[i]].betAmount)))
  }

  /** The names among `order` whose guess differs from the winning number. */
  function Losers(g: Game, order: seq<string>): (r: seq<string>)
    ensures |r| <= |order|
    ensures forall n :: n in r <==> n in order && IsLoser(g, n)
  {
    if |order| == 0 then []
    else
      var rest := Losers(g, order[1..]);
      if IsLoser(g, order[0]) then [order[0]] + rest else rest
  }

  /** getWinningPlayers: GameMissingException for an unknown id; otherwise
      exactly the players whose guess equals the winning number, each under
      their own name and with their payout. */
  function GetWinningPlayers(games: Store, id: GameId, order: seq<string>): (r: Result<seq<WinningPlayer>>)
    ensures r.Ok? <==> id in games
    ensures r.Err? ==> r.error == GameMissing(GameMissingMessage(id))
    ensures r.Ok? ==> forall i :: 0 <= i < |r.value| ==>
      var w := r.value[i];
      IsWinner(games[id], w.name) && w.wonAmount == CalculateWonAmount(games[id].players[w.name].betAmount)
    ensures r.Ok? ==> Names(r.value) == WinnerNames(games[id], order)
    ensures r.Ok? ==> forall n :: n in Names(r.value) <==> n in order && IsWinner(games[id], n)
  {
    match GetGame(games, id)
    case Ok(g) => Ok(Winners(g, order))
    case Err(e) => Err(e)
  }

  /** getUnluckyPlayers: GameMissingException for an unknown id; otherwise exactly
      the names whose guess differs from the winning number. */
  function GetUnluckyPlayers(games: Store, id: GameId, order: seq<string>): (r: Result<seq<string>>)
    ensures r.Ok? <==> id in games
    ensures r.Err? ==> r.error == GameMissing(GameMissingMessage(id))
    ensures r.Ok? ==> forall n :: n in r.value <==> n in order && IsLoser(games[id], n)
  {
    match GetGame(games, id)
    case Ok(g) => Ok(Losers(g, order))
    case Err(e) => Err(e)
  }

  /** `order` lists every element of `keys` exactly once: a HashMap's iteration order. */
  predicate Enumerates<K>(order: seq<K>, keys: set<K>) {
    && (forall i, j :: 0 <= i < j < |order| ==> order[i] != order[j])
    && (forall i :: 0 <= i < |order| ==> order[i] in keys)
    && (forall k :: k in keys ==> k in order)
  }

  lemma {:induction false} DistinctLength<K>(order: seq<K>, keys: set<K>)
    requires Enumerates(order, keys)
    ensures |order| == |keys|
    decreases |order|
  {
    if |order| > 0 {
      var rest, restKeys := order[1..], keys - {order[0]};
      forall k | k in restKeys ensures k in rest {
        var i :| 0 <= i < |order| && order[i] == k;
        assert i != 0;
        assert rest[i - 1] == k;
      }
      DistinctLength(rest, restKeys);
    }
  }

  lemma {:induction false} PartitionCounts(g: Game, order: seq<string>)
    requires forall i :: 0 <= i < |order| ==> order[i] in g.players
    ensures multiset(WinnerNames(g, order)) + multiset(Losers(g, order)) == multiset(order)
    decreases |order|
  {
    if |order| > 0 {
      PartitionCounts(g, order[1..]);
      assert order == [order[0]] + order[1..];
    }
  }

  /** When `order` is the players map's iteration order, winners and losers split
      the player names: every player is in exactly one of the two lists, once. */
  lemma WinnersAndLosersPartition(g: Game, order: seq<string>)
    requires Enumerates(order, g.players.Keys)
    ensures forall n :: n in g.players ==> (n in Names(Winners(g, order)) <==> n !in Losers(g, order))
    ensures |Winners(g, order)| + |Losers(g, order)| == |g.players|
  {
    PartitionCounts(g, order);
    DistinctLength(order, g.players.Keys);
    assert |multiset(WinnerNames(g, order))| + |multiset(Losers(g, order))| == |multiset(order)|;
    assert |Names(Winners(g, order))| == |WinnerNames(g, order)|;
  }

  /** notifyOfWinners: one WIN_NOTIFICATION to each winner carrying that winner,
      then one WINNER_LISTING with the whole list if and only if it is non-empty. */
  function NotifyOfWinners(winners: seq<WinningPlayer>): (r: seq<Event>)
    ensures |r| == |winners| + (if |winners| > 0 then 1 else 0)
    ensures forall i :: 0 <= i < |winners| ==>
      r[i] == ToPlayer(winners[i].name, Notification(WinNotificationCode, WinnerPayload(winners[i])))
    ensures |winners| > 0 ==> r[|winners|] == ToAll(Notification(WinnerListingCode, ListingPayload(winners)))
  {
    var messages := WinMessages(winners);
    if |winners| > 0 then messages + [ToAll(Notification(WinnerListingCode, ListingPayload(winners)))]
    else messages
  }

  /** The listing goes to everybody exactly when somebody won, and it is the last
      message of the batch, carrying the whole list. */
  lemma ListingOnlyWithWinners(winners: seq<WinningPlayer>)
    ensures var r := NotifyOfWinners(winners);
      && ((exists i :: 0 <= i < |r| && r[i].ToAll?) <==> |winners| > 0)
      && forall i :: 0 <= i < |r| && r[i].ToAll? ==>
           i == |winners| && r[i].note == Notification(WinnerListingCode, ListingPayload(winners))
  {
    var r := NotifyOfWinners(winners);
    if |winners| > 0 {
      assert r[|winners|].ToAll?;
    }
  }

  function WinMessages(winners: seq<WinningPlayer>): (r: seq<Event>)
    ensures |r| == |winners|
    ensures forall i :: 0 <= i < |winners| ==>
      r[i] == ToPlayer(winners[i].name, Notification(WinNotificationCode, WinnerPayload(winners[i])))
  {
    if |winners| == 0 then []
    else
      [ToPlayer(winners[0].name, Notification(WinNotificationCode, WinnerPayload(winners[0])))]
      + WinMessages(winners[1..])
  }

  /** notifyLoss: one LOSS_NOTIFICATION without payload to each listed name, and nothing else. */
  function NotifyLoss(names: seq<string>): (r: seq<Event>)
    ensures |r| == |names|
    ensures forall i :: 0 <= i < |names| ==>
      r[i] == ToPlayer(names[i], Notification(LossNotificationCode, NoPayload))
  {
    if |names| == 0 then []
    else [ToPlayer(names[0], Notification(LossNotificationCode, NoPayload))] + NotifyLoss(names[1..])
  }
}
